=== FILE: README.md ===
# Mixed-format table catalog and file classifier, modelled in Dafny

This project models two pieces of the Arctic lakehouse system.

**The mixed-table catalog** is `MixedTables`. A logical table is either unkeyed or keyed. An unkeyed table is one physical table of the table-format engine. A keyed table is two physical tables: a *base store* with compacted data and a *change store* with incremental records, both sharing the table's identifier and primary-key specification. The catalog does four things:

- It loads a table from its metadata: identifier, location map (TABLE, BASE, CHANGE), optional key-field list and property map.
- It creates a table. First it validates the required locations, then it stamps four derived properties into the metadata, then it creates the physical tables: base first, then change.
- It drops a table best-effort. A drop never throws. A non-purge drop removes the engine entries of BASE and CHANGE. A purge drop deletes the TABLE directory. Both modes then clean up a custom trash directory when the table's properties name one.

**The file classifier** is `DataFileInfoUtils`. It turns a data file or a positional delete file into a flat `DataFileInfo` record for the compaction optimizer. It uses the file's committing snapshot and its owning table.

The model has these files:

- `results.dfy`: `Option` (a Java reference that may be null) and `Result` (a call that returns or throws). `Result` works with `:-`, so the early exit of an uncaught exception reads the same as in the source.
- `tables.dfy`: schemas, partition specs, the engine's physical tables, the primary-key spec and its builder (a class), and the logical table as a tagged variant.
- `engine.dfy`: the engine and the file system, modelled as one value. `Warehouse` maps each location to its physical table and holds the set of existing paths. The engine's load, create and drop calls and the file IO's `exists` and `deletePrefix` calls are functions over that value. A `Faults` value, passed in by the caller, decides which of these calls throw and how much of a recursive delete was done before it threw. Every property holds for every `Faults` value, except where a lemma says otherwise: `CreateThenLoad` needs a load that does not throw, and the re-run lemmas fix the faults of the second run.
- `catalog.dfy`: the metadata record (a class whose property map is updated in place), the location check, the derived properties, and the `MixedTables` class. Its methods change the engine state step by step. Each one is tied by its `ensures` to a specification function of the old state (`LoadSpec`, `CreateSpec`, `DropSpec`), and the source's promises are proved about those functions.
- `catalog_lemmas.dfy`: properties that span several calls. Loading right after creating returns the created table, and running a drop twice changes nothing more.
- `data_file_info_utils.dfy`: the two conversion overloads, written as methods that fill the record one setter at a time, plus a reference definition of the classification rule.

The model follows the code where it does less than a reader might expect:

- The BASE and CHANGE drops of a non-purge drop sit in one `try`, so a failure on BASE skips CHANGE.
- The custom trash directory is cleaned in both drop modes, not only on purge.
- If the purge branch's `exists` or `deletePrefix` throws, the outer `catch` also skips the trash cleanup.
- The delete-file overload does not assign commit time and sequence number separately (see Findings).

## Model

| member | source | states |
|---|---|---|
| `Catalog.CheckLocation` | core/src/main/java/com/netease/arctic/catalog/MixedTables.java:113-117 | fails with an argument error exactly when the location for the key is missing or blank (Java whitespace); otherwise returns the stored location |
| `Catalog.MissingColumn` | core/src/main/java/com/netease/arctic/catalog/MixedTables.java:121-126 | names the first key field the schema lacks, the one at which the builder's `addColumn` throws; none iff every key field is a column of the schema |
| `Catalog.KeySpecFor` | core/src/main/java/com/netease/arctic/catalog/MixedTables.java:119-129 | the key spec built from the meta's key fields over a schema: it succeeds iff every key field is a column; the spec is over that schema with the fields in list order, none when the list is null or empty, so it has a key iff the meta is keyed; otherwise the error names the first field the schema lacks |
| `Catalog.LoadSpec` | core/src/main/java/com/netease/arctic/catalog/MixedTables.java:69-150 | a loaded table is keyed iff the key record has a non-null, non-empty field list; a missing or blank required location (TABLE, BASE, and CHANGE when keyed) fails with the argument error whatever the engine holds; the load succeeds iff those locations are present, the engine loads BASE (and CHANGE when keyed) and every key field is a column of the base schema; the result carries the meta's identifier, the BASE table, the TABLE location and a key spec of the meta's fields over the base schema; errors are argument, engine or unknown-key-column errors; after the location checks, a failed BASE load gives exactly that engine exception, and only then, for a keyed table, a failed CHANGE load gives its exception; an unknown-key-column error names the first key field the base schema lacks |
| `Catalog.MixedTables.LoadTableByMeta` | core/src/main/java/com/netease/arctic/catalog/MixedTables.java:69-77 | returns what `LoadSpec` gives for the current engine state, dispatching on the same keyed test |
| `Catalog.MixedTables.LoadKeyedTable` | core/src/main/java/com/netease/arctic/catalog/MixedTables.java:79-111 | checks TABLE, BASE, CHANGE, then loads base and then change, then builds the key spec over the base schema, and assembles the keyed table, as `LoadSpec`'s keyed case |
| `Catalog.MixedTables.LoadUnkeyedTable` | core/src/main/java/com/netease/arctic/catalog/MixedTables.java:131-150 | checks only TABLE and BASE, loads one table at BASE, as `LoadSpec`'s unkeyed case |
| `Catalog.MixedTables.BuildPrimaryKeySpec` | core/src/main/java/com/netease/arctic/catalog/MixedTables.java:119-129 | succeeds iff every key field is a column of the schema; the built spec is over the given schema and holds the meta's key fields in list order, none when the list is null or empty, so the spec has a key iff the meta is keyed; otherwise it fails naming the first field the schema lacks |
| `Catalog.DerivedProperties` | core/src/main/java/com/netease/arctic/catalog/MixedTables.java:220-228 | the key set grows by exactly the four derived keys; create-time reads back as the supplied millis, format-version is "2", metadata-delete-after-commit is "true", max-continuous-empty-commits is "2147483647"; every other property keeps its value |
| `Catalog.MixedTables.FillTableProperties` | core/src/main/java/com/netease/arctic/catalog/MixedTables.java:220-228 | four successive puts leave the meta's property map equal to `DerivedProperties` of the old map |
| `Catalog.LongRoundTrip` | core/src/main/java/com/netease/arctic/catalog/MixedTables.java:222 | the decimal rendering of the creation millis parses back to the same number |
| `Catalog.CreateSpec` | core/src/main/java/com/netease/arctic/catalog/MixedTables.java:152-162 | a missing or blank required location fails with the argument error before any engine call (engine state unchanged); the create succeeds iff the engine can create at BASE (and, when keyed, at a distinct CHANGE): neither location holds a table and no create there throws; a failure of the first engine create is wrapped with its cause ("create base table failed" keyed, "create table failed" unkeyed) and changes nothing; a failure of a keyed change create is wrapped as "create change table failed" with its cause and keeps the base table; a created table is keyed iff the caller's key spec has a column; creation only adds tables; on keyed success base and change tables are created at BASE and CHANGE with the same schema, spec and derived properties, and the result carries the caller's key spec and the TABLE location; on unkeyed success one table is created at BASE; the only failure that leaves a trace is a failed change create, which keeps the base table |
| `Catalog.CreateKeyedSpec` | core/src/main/java/com/netease/arctic/catalog/MixedTables.java:164-218 | the keyed create: checks TABLE, BASE, CHANGE first; succeeds iff BASE and CHANGE are distinct and the engine can create at both; a base create failure becomes "create base table failed" carrying the engine's cause, with the state unchanged; a change create failure becomes "create change table failed" carrying its cause, with the base table kept |
| `Catalog.CreateUnkeyedSpec` | core/src/main/java/com/netease/arctic/catalog/MixedTables.java:230-263 | the unkeyed create: checks TABLE and BASE only; succeeds iff the engine can create at BASE; an engine failure becomes "create table failed" carrying the engine's cause; any failure leaves the engine state unchanged; on success exactly the BASE table is added |
| `Catalog.MixedTables.CreateTableByMeta` | core/src/main/java/com/netease/arctic/catalog/MixedTables.java:152-162 | result and new engine state are those of `CreateSpec`; the meta's properties get the derived properties iff the location checks pass |
| `Catalog.MixedTables.CreateKeyedTable` | core/src/main/java/com/netease/arctic/catalog/MixedTables.java:164-218 | result and new engine state are those of `CreateKeyedSpec`; properties are filled only after the three checks pass |
| `Catalog.MixedTables.CreateUnkeyedTable` | core/src/main/java/com/netease/arctic/catalog/MixedTables.java:230-263 | result and new engine state are those of `CreateUnkeyedSpec`; properties are filled only after the two checks pass |
| `Catalog.RecoveredProperties` | core/src/main/java/com/netease/arctic/catalog/MixedTables.java:266-274 | a load failure during drop is swallowed and leaves the recovered map empty; otherwise it is the loaded table's (base) properties |
| `Catalog.DropBaseAndChange` | core/src/main/java/com/netease/arctic/catalog/MixedTables.java:277-290 | nothing outside the BASE and CHANGE directories is touched; BASE goes, with its directory, when it is not blank and its drop does not throw; a throw on BASE keeps the BASE table and skips CHANGE, so nothing outside BASE changes; CHANGE goes when it is not blank, its drop does not throw and BASE's did not |
| `Catalog.DropSpec` | core/src/main/java/com/netease/arctic/catalog/MixedTables.java:265-313 | drop only removes, and the trash step only removes from what the primary step left; a throw while purging ends the drop there; a non-purge drop removes BASE unless it is blank or its engine drop throws, and CHANGE unless it is blank or its drop or BASE's throws, whether or not a trash root was recovered; a non-purge drop removes nothing outside the BASE, CHANGE and trash directories, and a purge drop nothing outside the TABLE and trash directories; a purge drop that does not throw leaves nothing under an existing TABLE directory; the trash directory is touched only when the trash root was recovered (never after a failed load), its existence check does not throw, and it exists after the primary step, and then nothing under it remains when no call throws |
| `Catalog.MixedTables.DropTableByMeta` | core/src/main/java/com/netease/arctic/catalog/MixedTables.java:265-313 | never throws: for every engine state and every pattern of failures the new engine state is that of `DropSpec` |
| `Catalog.MixedTables.DropBaseAndChangeTables` | core/src/main/java/com/netease/arctic/catalog/MixedTables.java:277-290 | drops BASE and then CHANGE through `dropInternalTable`, each when not blank, and stops at the first throw; the new engine state is that of `DropBaseAndChange` |
| `Catalog.MixedTables.DeleteDirectory` | core/src/main/java/com/netease/arctic/catalog/MixedTables.java:292-296 | checks existence and deletes the prefix only when present; reports whether either call threw, and leaves the state of `DeleteIfExists` |
| `Catalog.MixedTables.DropInternalTable` | core/src/main/java/com/netease/arctic/catalog/MixedTables.java:315-323 | the engine drop of one location; reports whether it threw, and leaves the state that drop leaves |
| `Engine.DropTable` | core/src/main/java/com/netease/arctic/catalog/MixedTables.java:320 | the engine drop of a location: a location without a table is left alone, even when the drop throws; otherwise the table's directory is deleted recursively; it throws iff the faults say so, and then the table itself survives; nothing outside the location is touched |
| `Engine.DeletePrefix` | core/src/main/java/com/netease/arctic/catalog/MixedTables.java:295 | removes every path and table under the prefix and nothing outside it; it throws iff the faults say so, and then the prefix itself survives |
| `Engine.DeleteIfExists` | core/src/main/java/com/netease/arctic/catalog/MixedTables.java:293-296 | deletes the prefix only if the path exists: nothing outside the path's tree is touched, a null path or a throwing existence check changes nothing, an absent path leaves the state as it is, and a delete that does not throw leaves nothing under the path; it throws iff the existence check does or the path exists and its delete does |
| `CatalogLemmas.CreateThenLoad` | core/src/main/java/com/netease/arctic/catalog/MixedTables.java:69-162 | loading right after a successful create, with the meta's key fields equal to the caller's key spec over the created schema, returns exactly the table the create returned |
| `CatalogLemmas.DropIdempotent` | core/src/main/java/com/netease/arctic/catalog/MixedTables.java:265-313 | running a drop on its own outcome under the same faults changes nothing: every step either removed its target or throws again at the same point |
| `CatalogLemmas.RerunDropsBaseAndChange` | core/src/main/java/com/netease/arctic/catalog/MixedTables.java:277-290 | whatever an earlier drop left, a non-purge re-run whose engine drops do not throw removes BASE and CHANGE |
| `CatalogLemmas.TrashOrphanedOnRerun` | core/src/main/java/com/netease/arctic/catalog/MixedTables.java:266-309 | as written, a purge drop whose trash step throws and a fault-free re-run leave the trash directory in place: the first run deleted the table, so the re-run cannot recover the trash root |
| `Catalog.DropTrashFirst` | core/src/main/java/com/netease/arctic/catalog/MixedTables.java:265-313 | drop with the trash step first: only removes; a throw in the trash step leaves everything outside the trash directory as it was, so that run does not drop the table at all (the price of the reordering); without a recovered trash root it is the primary step alone; when the trash step does not throw, a non-purge drop still removes BASE and CHANGE under the same conditions as the drop as written |
| `CatalogLemmas.TrashFirstKeepsTableOnTrashThrow` | core/src/main/java/com/netease/arctic/catalog/MixedTables.java:277-309 | the trade-off of the trash-first order: when the trash directory's existence check throws on a non-purge drop, the drop as written still removes BASE, while the trash-first drop leaves BASE in place for a later run |
| `CatalogLemmas.TrashFirstPurgesTable` | core/src/main/java/com/netease/arctic/catalog/MixedTables.java:291-309 | the trash-first order still purges: when its trash step and the existence check and delete of TABLE do not throw, nothing is left under an existing TABLE directory |
| `CatalogLemmas.TrashFirstRerunCleansTrash` | core/src/main/java/com/netease/arctic/catalog/MixedTables.java:265-313 | with the trash step first, whenever a first run recovered the trash root of an existing trash directory that holds none of the table's locations, a fault-free re-run leaves nothing under that directory |
| `DataFileInfoUtils.ConvertDataFile` | optimizer/src/test/java/com/netease/arctic/optimizer/util/DataFileInfoUtils.java:36-56 | path, size and record count are the file's; the partition is the owning table's spec applied to the file's partition values and the spec id is the table's; an unkeyed table's file is BASE_FILE at index 0, mask 0 whatever the file holds; a keyed table's file takes type and node from its keyed-file view, and fails only when that view does; commit time is the snapshot's timestamp and sequence its sequence number; together this is the classification rule `Classified` |
| `DataFileInfoUtils.ConvertDeleteFile` | optimizer/src/test/java/com/netease/arctic/optimizer/util/DataFileInfoUtils.java:58-72 | path, size, record count, partition and spec id as for data files; always POS_DELETE_FILE with index and mask from parsing the path, and fails only when parsing does; commit time holds the snapshot's sequence number and sequence is never set, so the record is `Classified` except in those two fields |
| `DataFileInfoUtils.DeleteFileCommitTimeLost` | optimizer/src/test/java/com/netease/arctic/optimizer/util/DataFileInfoUtils.java:69-70 | for every delete file whose node parses and every snapshot whose timestamp differs from its sequence number (timestamp 1700000000000 and sequence 7, say), the as-written record holds the sequence number as commit time, has no sequence, and differs from the `Classified` record |
| `DataFileInfoUtils.ConvertDeleteFileIntended` | optimizer/src/test/java/com/netease/arctic/optimizer/util/DataFileInfoUtils.java:58-72 | the delete-file conversion with commit time set to the snapshot's timestamp and sequence set to its sequence number: exactly the `Classified` record |

## Left out

- `HadoopTables` (load, create, dropTable) and `ArcticFileIO.exists` / `deletePrefix` are foreign library calls and I/O. They are modelled only as state transitions over `Warehouse` that may throw.
  - A throw is decided by a `Faults` value that the caller supplies. Transient failures (the same call throwing once and then succeeding) are not modelled.
  - The engine's drop without purge is modelled as Iceberg's `HadoopTables.dropTable` behaves: a location without a table is left alone, even when the drop throws, and otherwise the table's directory is deleted recursively.
  - A recursive delete that throws (`deletePrefix` or the engine drop) has removed the part of its tree that the faults name, but never the root directory itself, which a recursive delete removes last.
  - Parent directories are not forced to exist when a path exists.
- `ArcticFileIOs.buildRecoverableHadoopFileIO`, `ArcticFileIOs.buildHadoopFileIO` and `CatalogUtil.useArcticTableOperations` are foreign calls that the model takes never to throw.
  - The recoverable file IO is the total constructor `RecoverableHadoopFileIO`, `useArcticTableOperations` is the identity on the physical table, and the plain file IO of the drop is not represented: its `exists` and `deletePrefix` act on `Warehouse` directly.
  - What is lost: in the source, a throw from these calls would surface as an exception of its own. In the unkeyed create, the file IO is built after `tables.create`, so a throw there would leave the created table in place. In the keyed create, the file IO is built before the base create, so a throw from it leaves no table, but `useArcticTableOperations` runs after each create, so a throw from it would leave the base table (or both tables) in place. In a drop, a throw from `buildHadoopFileIO` would make the whole drop do nothing.
  - So `CreateUnkeyedSpec`'s "any failure leaves the engine state unchanged" and `CreateSpec`'s "the only failure that leaves a trace is a failed change create" hold only under this assumption.
- `tableMetaStore.doAs` and `getConfiguration` are authentication plumbing. Each call simply runs its body, and the `tableMetaStore` field is not modelled.
- `System.currentTimeMillis()` is a clock. The create operations take the millis as a parameter.
- Logging is left out.
- The helpers that are not shown are passed in as function parameters: `partitionToPath`, `DefaultKeyedFile`, `TableFileUtils.parseFileNodeFromFileName` and `TableTrashManagers.getTrashParentLocation`. The keyed-file view and the node parser return `None` for a throw. No tree-node bit layout and no path round trip is assumed for them.
- `PrimaryKeySpec.Builder` is not part of this model. Its `addColumn` is modelled as throwing for a column the schema does not have, as `UnknownKeyColumn` naming the column. Its message and any other check it makes are not modelled.
- `BasicKeyedTable.properties()` and `spec()` are not part of this model. They are taken to delegate to the base store.
- The property-key constants are declared in libraries that are not part of this model (`TableProperties`, `MetaTableProperties`, Iceberg's `TableProperties`). They are written with those libraries' values, and the proofs only rely on the keys being distinct.
- The `DataFileType` enum is not part of this model. It is reduced to the three types the classifier uses.
- Java `long` and `int` widths are not modelled, because every number is copied and none is computed.
- The Hive test helper and the Spark format adapter contain no catalog or classifier logic.

## Findings

| source | as written | input that shows it | evidently intended | confidence | as-written member | corrected member |
|---|---|---|---|---|---|---|
| optimizer/src/test/java/com/netease/arctic/optimizer/util/DataFileInfoUtils.java:69-70 | the second `setCommitTime` stores the snapshot's sequence number over the timestamp, and `setSequence` is never called for delete files | any delete file from a snapshot whose timestamp differs from its sequence number, e.g. timestamp 1700000000000 and sequence 7: commit time becomes 7 and sequence stays unset | commit time = snapshot timestamp and sequence = snapshot sequence number, as for data files (lines 53-54) | not executed; high (the data-file overload assigns both fields correctly) | `DataFileInfoUtils.ConvertDeleteFile`, `DataFileInfoUtils.DeleteFileCommitTimeLost` | `DataFileInfoUtils.ConvertDeleteFileIntended` |
| core/src/main/java/com/netease/arctic/catalog/MixedTables.java:266-309 | the trash root is read from the loaded table, and the trash directory is cleaned after the primary step has already deleted the table; when the trash step throws, every later drop fails to load the table and never cleans the trash | unkeyed table at `/u/base` with trash root `/trash` and trash directory `/trash/x`; paths `/u`, `/u/base`, `/trash/x`; a purge drop whose existence check on `/trash/x` throws, then a drop without faults: `/trash/x` stays | possibly that re-running drop after a partial failure finishes the cleanup. Running the trash step before the primary step gives that, because a throw there leaves the table loadable. It is a trade-off, not a plain fix: such a throw then ends that run before the table is dropped, where the code as written always finishes its primary step. Leaving an orphaned trash directory to other cleanup is also a defensible best-effort design | not executed; low (the behaviour follows from the code, but the code does not say whether a re-run is expected to finish the trash cleanup, and the alternative order gives up finishing the current drop) | `CatalogLemmas.TrashOrphanedOnRerun` | `Catalog.DropTrashFirst`, `CatalogLemmas.TrashFirstRerunCleansTrash`, `CatalogLemmas.TrashFirstKeepsTableOnTrashThrow`, `CatalogLemmas.TrashFirstPurgesTable` |

=== FILE: catalog.dfy ===
/** The mixed-table catalog: it decides whether a table is keyed or unkeyed,
    validates the location keys the table needs, injects derived properties
    before creation, creates or loads one physical table (unkeyed) or two
    (keyed: base and change), and drops a table best-effort without ever
    throwing.

    Every operation of the `MixedTables` class below is an imperative method
    whose `ensures` ties its result and the new engine state to a specification
    function of the old state (`LoadSpec`, `CreateSpec`, `DropSpec`); what the
    catalog promises is stated on those functions and in `CatalogLemmas`. */
module Catalog {
  import opened Results
  import opened Tables
  import opened Engine

  /** The keys of the location map of a table's metadata. */
  datatype LocationKey = TableKey | BaseKey | ChangeKey

  /** The metadata's primary-key record; its field list may be null. */
  datatype KeySpecMeta = KeySpecMeta(fields: Option<seq<string>>)

  /** `TableMeta`: identifier, location map, optional key record and a property
      map that creation updates in place. */
  class TableMeta {
    const identifier: TableIdentifier
    const locations: map<LocationKey, string>
    const keySpec: Option<KeySpecMeta>
    var properties: map<string, string>

    constructor (identifier: TableIdentifier, locations: map<LocationKey, string>,
                 keySpec: Option<KeySpecMeta>, properties: map<string, string>)
      ensures this.identifier == identifier && this.locations == locations
      ensures this.keySpec == keySpec && this.properties == properties
    {
      this.identifier := identifier;
      this.locations := locations;
      this.keySpec := keySpec;
      this.properties := properties;
    }
  }

  /** The exceptions the catalog lets escape. */
  datatype CatalogError =
    | IllegalArgument(message: string)                 // a failed `Preconditions.checkArgument`
    | IllegalState(message: string, cause: EngineFailure) // an engine create failure, wrapped
    | EngineError(cause: EngineFailure)                // an engine load failure, unwrapped
    | UnknownKeyColumn(column: string)                 // the key-spec builder's argument error

  const LocationNotFound := "table location can't found"
  const CreateBaseTableFailed := "create base table failed"
  const CreateChangeTableFailed := "create change table failed"
  const CreateTableFailed := "create table failed"

  // Property keys; their values are those of the libraries that declare them.
  const TableCreateTime := "table.create-timestamp"
  const FormatVersion := "format-version"
  const MetadataDeleteAfterCommit := "write.metadata.delete-after-commit.enabled"
  const MaxContinuousEmptyCommits := "flink.max-continuous-empty-commits"
  const TrashCustomRootLocation := "table-trash.custom-root-location"
  /** `String.valueOf(Integer.MAX_VALUE)`. */
  const IntegerMaxValue := "2147483647"

  /** `Character.isWhitespace`. */
  predicate IsWhitespace(c: char) {
    || c == ' '
    || ('\t' <= c <= '\r')
    || ('\U{1C}' <= c <= '\U{1F}')
    || c == '\U{1680}'
    || ('\U{2000}' <= c <= '\U{200A}' && c != '\U{2007}')
    || c == '\U{2028}' || c == '\U{2029}' || c == '\U{205F}' || c == '\U{3000}'
  }

  /** `StringUtils.isBlank`: null, empty or whitespace only. */
  predicate IsBlank(s: Option<string>) {
    s.None? || forall i :: 0 <= i < |s.value| ==> IsWhitespace(s.value[i])
  }

  /** `checkLocation`: the stored location for `key`, or an argument error when
      it is missing or blank. */
  function CheckLocation(locations: map<LocationKey, string>, key: LocationKey): (r: Result<string, CatalogError>)
    ensures r.Ok? <==> key in locations && !IsBlank(Some(locations[key]))
    ensures r.Ok? ==> r.value == locations[key]
    ensures r.Err? ==> r.error == IllegalArgument(LocationNotFound)
  {
    var location := Get(locations, key);
    if IsBlank(location) then Err(IllegalArgument(LocationNotFound)) else Ok(location.value)
  }

  /** Every location key that a keyed (TABLE, BASE, CHANGE) or unkeyed
      (TABLE, BASE) table needs is present and not blank. */
  predicate LocationsPresent(locations: map<LocationKey, string>, keyed: bool) {
    && CheckLocation(locations, TableKey).Ok?
    && CheckLocation(locations, BaseKey).Ok?
    && (keyed ==> CheckLocation(locations, ChangeKey).Ok?)
  }

  /** The dispatch test of `loadTableByMeta`: a key record whose field list is
      non-null and non-empty. */
  predicate IsKeyedMeta(keySpec: Option<KeySpecMeta>) {
    keySpec.Some? && keySpec.value.fields.Some? && |keySpec.value.fields.value| > 0
  }

  /** The key fields `buildPrimaryKeySpec` adds: none unless the meta is keyed. */
  function KeyFields(keySpec: Option<KeySpecMeta>): seq<string> {
    if IsKeyedMeta(keySpec) then keySpec.value.fields.value else []
  }

  /** The first key field that `schema` does not have, if any: the column at
      which `PrimaryKeySpec.Builder.addColumn` throws. */
  function MissingColumn(fields: seq<string>, schema: Schema): (r: Option<string>)
    ensures r.None? <==> forall i :: 0 <= i < |fields| ==> fields[i] in schema.columns
    ensures r.Some? ==>
      exists i :: 0 <= i < |fields| && fields[i] == r.value && r.value !in schema.columns
                  && forall j :: 0 <= j < i ==> fields[j] in schema.columns
  {
    if fields == [] then None
    else if fields[0] !in schema.columns then Some(fields[0])
    else
      var rest := MissingColumn(fields[1..], schema);
      assert forall i :: 1 <= i < |fields| ==> fields[i] == fields[1..][i - 1];
      rest
  }

  /** Scanning `fields` from `i` on finds the same first missing column, so a
      column missing at `i` is the first one. */
  lemma FirstMissing(fields: seq<string>, i: nat, schema: Schema)
    requires i < |fields| && fields[i] !in schema.columns
    requires MissingColumn(fields, schema) == MissingColumn(fields[i..], schema)
    ensures MissingColumn(fields, schema) == Some(fields[i])
  {
    assert fields[i..][0] == fields[i];
  }

  /** The key spec `buildPrimaryKeySpec` builds over `schema`, or the builder's
      error at the first unknown column. */
  function KeySpecFor(schema: Schema, keySpec: Option<KeySpecMeta>): (r: Result<PrimaryKeySpec, CatalogError>)
    // it succeeds iff every key field is a column of the schema
    ensures r.Ok? <==> forall i :: 0 <= i < |KeyFields(keySpec)| ==> KeyFields(keySpec)[i] in schema.columns
    ensures r.Ok? ==> r.value.schema == schema
    ensures r.Ok? && IsKeyedMeta(keySpec) ==> r.value.fields == keySpec.value.fields.value
    ensures r.Ok? && !IsKeyedMeta(keySpec) ==> r.value.fields == []
    ensures r.Ok? ==> (r.value.PrimaryKeyExisted() <==> IsKeyedMeta(keySpec))
    // otherwise it names the first field the schema lacks
    ensures r.Err? ==>
      exists i :: 0 <= i < |KeyFields(keySpec)| && r.error == UnknownKeyColumn(KeyFields(keySpec)[i])
                  && KeyFields(keySpec)[i] !in schema.columns
                  && forall j :: 0 <= j < i ==> KeyFields(keySpec)[j] in schema.columns
  {
    match MissingColumn(KeyFields(keySpec), schema)
    case None => Ok(PrimaryKeySpec(schema, KeyFields(keySpec)))
    case Some(column) => Err(UnknownKeyColumn(column))
  }

  function DigitChar(d: nat): char
    requires d < 10
  {
    "0123456789"[d]
  }

  function DigitValue(c: char): int {
    c as int - '0' as int
  }

  /** Decimal digits of a natural number, most significant first. */
  function Decimal(n: nat): (s: string)
    ensures |s| > 0 && forall i :: 0 <= i < |s| ==> '0' <= s[i] <= '9'
  {
    if n < 10 then [DigitChar(n)] else Decimal(n / 10) + [DigitChar(n % 10)]
  }

  /** `String.valueOf(long)`. */
  function LongToString(n: int): string {
    if n < 0 then "-" + Decimal(-n) else Decimal(n)
  }

  function DecimalValue(s: string): int {
    if s == [] then 0 else DecimalValue(s[..|s| - 1]) * 10 + DigitValue(s[|s| - 1])
  }

  /** `Long.parseLong`, on the strings `LongToString` produces. */
  function ParseLong(s: string): int {
    if |s| > 0 && s[0] == '-' then -DecimalValue(s[1..]) else DecimalValue(s)
  }

  lemma {:induction false} DecimalRoundTrip(n: nat)
    ensures DecimalValue(Decimal(n)) == n
  {
    if n >= 10 {
      var s := Decimal(n);
      assert s[..|s| - 1] == Decimal(n / 10);
      DecimalRoundTrip(n / 10);
    }
  }

  /** The rendered creation time reads back as the millis it was made from. */
  lemma LongRoundTrip(n: int)
    ensures ParseLong(LongToString(n)) == n
  {
    if n < 0 {
      var m: nat := -n;
      NegativeRendering(n, m);
      NegativeRoundTrip(m);
    } else {
      var m: nat := n;
      NonNegativeRendering(m);
      NonNegativeRoundTrip(m);
    }
  }

  lemma NegativeRendering(n: int, m: nat)
    requires n < 0 && m == -n
    ensures LongToString(n) == "-" + Decimal(m)
  {
  }

  lemma NonNegativeRendering(m: nat)
    ensures LongToString(m) == Decimal(m)
  {
  }

  lemma NegativeRoundTrip(m: nat)
    ensures ParseLong("-" + Decimal(m)) == -(m as int)
  {
    var d := Decimal(m);
    ParseNegative(d);
    DecimalRoundTrip(m);
  }

  lemma NonNegativeRoundTrip(n: nat)
    ensures ParseLong(Decimal(n)) == n
  {
    ParseDigits(Decimal(n));
    DecimalRoundTrip(n);
  }

  lemma ParseNegative(d: string)
    ensures ParseLong("-" + d) == -DecimalValue(d)
  {
    assert ("-" + d)[1..] == d;
  }

  lemma ParseDigits(d: string)
    requires |d| > 0 && '0' <= d[0] <= '9'
    ensures ParseLong(d) == DecimalValue(d)
  {
  }

  /** The property map after `fillTableProperties` at time `nowMillis`. */
  function DerivedProperties(props: map<string, string>, nowMillis: int): (r: map<string, string>)
    ensures r.Keys == props.Keys + {TableCreateTime, FormatVersion, MetadataDeleteAfterCommit, MaxContinuousEmptyCommits}
    ensures ParseLong(r[TableCreateTime]) == nowMillis
    ensures r[FormatVersion] == "2"
    ensures r[MetadataDeleteAfterCommit] == "true"
    ensures r[MaxContinuousEmptyCommits] == IntegerMaxValue
    ensures forall k :: k in props && k !in {TableCreateTime, FormatVersion, MetadataDeleteAfterCommit, MaxContinuousEmptyCommits} ==> r[k] == props[k]
  {
    LongRoundTrip(nowMillis);
    props[TableCreateTime := LongToString(nowMillis)]
         [FormatVersion := "2"]
         [MetadataDeleteAfterCommit := "true"]
         [MaxContinuousEmptyCommits := IntegerMaxValue]
  }

  /** An engine exception that propagates unchanged. */
  function Rethrow<T>(r: Result<T, EngineFailure>): Result<T, CatalogError> {
    match r
    case Ok(v) => Ok(v)
    case Err(e) => Err(EngineError(e))
  }

  // ---------------------------------------------------------------- load

  /** The keyed load: checks TABLE, BASE and CHANGE, loads BASE and then
      CHANGE, and builds the key spec over the base schema. */
  function LoadKeyedSpec(w: Warehouse, f: Faults, cp: map<string, string>, meta: TableMeta,
                         props: map<string, string>): (r: Result<ArcticTable, CatalogError>)
    ensures !LocationsPresent(meta.locations, true) ==> r == Err(IllegalArgument(LocationNotFound))
    ensures LocationsPresent(meta.locations, true) ==>
      var base := Load(w, f, meta.locations[BaseKey]);
      var change := Load(w, f, meta.locations[ChangeKey]);
      && (base.Err? ==> r == Err(EngineError(base.error)))
      && (base.Ok? && change.Err? ==> r == Err(EngineError(change.error)))
      && (base.Ok? && change.Ok? ==>
            var keySpec := KeySpecFor(base.value.schema, meta.keySpec);
            && (keySpec.Err? ==> r == Err(keySpec.error))
            && (keySpec.Ok? ==>
                  && r.Ok? && r.value.KeyedTable? && r.value.Id() == meta.identifier
                  && r.value.tableLocation == meta.locations[TableKey]
                  && r.value.primaryKeySpec == keySpec.value
                  && r.value.baseTable.table == base.value
                  && r.value.changeTable.table == change.value))
  {
    var tableLocation :- CheckLocation(meta.locations, TableKey);
    var baseLocation :- CheckLocation(meta.locations, BaseKey);
    var changeLocation :- CheckLocation(meta.locations, ChangeKey);
    var io := RecoverableHadoopFileIO(meta.identifier, tableLocation, props, cp);
    var baseIceberg :- Rethrow(Load(w, f, baseLocation));
    var changeIceberg :- Rethrow(Load(w, f, changeLocation));
    var keySpec :- KeySpecFor(baseIceberg.schema, meta.keySpec);
    Ok(KeyedTable(tableLocation, keySpec,
                  InternalTable(BaseStore, meta.identifier, baseIceberg, baseLocation, io, cp),
                  InternalTable(ChangeStore, meta.identifier, changeIceberg, changeLocation, io, cp)))
  }

  /** The unkeyed load: checks TABLE and BASE and loads BASE. */
  function LoadUnkeyedSpec(w: Warehouse, f: Faults, cp: map<string, string>, meta: TableMeta,
                           props: map<string, string>): (r: Result<ArcticTable, CatalogError>)
    ensures !LocationsPresent(meta.locations, false) ==> r == Err(IllegalArgument(LocationNotFound))
    ensures LocationsPresent(meta.locations, false) ==>
      var base := Load(w, f, meta.locations[BaseKey]);
      && (base.Err? ==> r == Err(EngineError(base.error)))
      && (base.Ok? ==> r.Ok? && r.value.UnkeyedTable? && r.value.Id() == meta.identifier && r.value.table == base.value)
  {
    var tableLocation :- CheckLocation(meta.locations, TableKey);
    var baseLocation :- CheckLocation(meta.locations, BaseKey);
    var table :- Rethrow(Load(w, f, baseLocation));
    var io := RecoverableHadoopFileIO(meta.identifier, tableLocation, props, cp);
    Ok(UnkeyedTable(meta.identifier, table, baseLocation, io, cp))
  }

  /** `loadTableByMeta` against engine state `w`, with `props` the meta's
      current property map. */
  function LoadSpec(w: Warehouse, f: Faults, cp: map<string, string>, meta: TableMeta,
                    props: map<string, string>): (r: Result<ArcticTable, CatalogError>)
    // keyed iff the key record has a non-null, non-empty field list
    ensures r.Ok? ==> (r.value.IsKeyedTable() <==> IsKeyedMeta(meta.keySpec))
    // the location checks come first: a missing or blank location fails whatever the engine holds
    ensures !LocationsPresent(meta.locations, IsKeyedMeta(meta.keySpec)) ==> r == Err(IllegalArgument(LocationNotFound))
    ensures r.Ok? <==>
      && LocationsPresent(meta.locations, IsKeyedMeta(meta.keySpec))
      && Load(w, f, meta.locations[BaseKey]).Ok?
      && (IsKeyedMeta(meta.keySpec) ==>
            && Load(w, f, meta.locations[ChangeKey]).Ok?
            && forall i :: 0 <= i < |meta.keySpec.value.fields.value| ==>
                 meta.keySpec.value.fields.value[i] in w.tables[meta.locations[BaseKey]].schema.columns)
    ensures r.Err? ==> r.error.IllegalArgument? || r.error.EngineError? || r.error.UnknownKeyColumn?
    // BASE is loaded first, and its engine exception propagates unchanged
    ensures LocationsPresent(meta.locations, IsKeyedMeta(meta.keySpec)) && Load(w, f, meta.locations[BaseKey]).Err? ==>
      r == Err(EngineError(Load(w, f, meta.locations[BaseKey]).error))
    // then CHANGE, when keyed
    ensures IsKeyedMeta(meta.keySpec) && LocationsPresent(meta.locations, true)
            && Load(w, f, meta.locations[BaseKey]).Ok? && Load(w, f, meta.locations[ChangeKey]).Err? ==>
      r == Err(EngineError(Load(w, f, meta.locations[ChangeKey]).error))
    // a key field the base schema lacks is reported by name
    ensures r.Err? && r.error.UnknownKeyColumn? ==>
      && IsKeyedMeta(meta.keySpec)
      && LocationsPresent(meta.locations, true) && meta.locations[BaseKey] in w.tables
      && r.error.column in meta.keySpec.value.fields.value
      && r.error.column !in w.tables[meta.locations[BaseKey]].schema.columns
      // the first such field, where the builder throws
      && Some(r.error.column) == MissingColumn(KeyFields(meta.keySpec), w.tables[meta.locations[BaseKey]].schema)
    ensures r.Ok? ==> r.value.Id() == meta.identifier && r.value.Primary() == w.tables[meta.locations[BaseKey]]
    ensures r.Ok? && r.value.KeyedTable? ==>
      && r.value.tableLocation == meta.locations[TableKey]
      && r.value.primaryKeySpec == PrimaryKeySpec(r.value.baseTable.table.schema, meta.keySpec.value.fields.value)
      && r.value.changeTable.table == w.tables[meta.locations[ChangeKey]]
  {
    if IsKeyedMeta(meta.keySpec) then LoadKeyedSpec(w, f, cp, meta, props)
    else LoadUnkeyedSpec(w, f, cp, meta, props)
  }

  // ---------------------------------------------------------------- create

  datatype CreateOutcome = CreateOutcome(result: Result<ArcticTable, CatalogError>, warehouse: Warehouse)

  /** The engine creates a table at `location`: it does not throw there and no
      table is there yet. */
  predicate Creatable(w: Warehouse, f: Faults, location: string) {
    location !in f.create && location !in w.tables
  }

  function CreateKeyedSpec(w: Warehouse, f: Faults, cp: map<string, string>, meta: TableMeta,
                           props: map<string, string>, schema: Schema, pk: PrimaryKeySpec,
                           spec: PartitionSpec, nowMillis: int): (r: CreateOutcome)
    ensures !LocationsPresent(meta.locations, true) ==> r == CreateOutcome(Err(IllegalArgument(LocationNotFound)), w)
    // it succeeds iff both locations are free to the engine and distinct
    ensures r.result.Ok? <==>
      && LocationsPresent(meta.locations, true)
      && Creatable(w, f, meta.locations[BaseKey])
      && Creatable(w, f, meta.locations[ChangeKey])
      && meta.locations[BaseKey] != meta.locations[ChangeKey]
    // each engine failure is wrapped, with its cause, in its own illegal-state error
    ensures LocationsPresent(meta.locations, true) ==>
      var filled := DerivedProperties(props, nowMillis);
      var base := Create(w, f, schema, spec, filled, meta.locations[BaseKey]);
      && (base.Err? ==> r == CreateOutcome(Err(IllegalState(CreateBaseTableFailed, base.error)), w))
      && (base.Ok? ==>
            var w1 := WithTable(w, base.value);
            var change := Create(w1, f, schema, spec, filled, meta.locations[ChangeKey]);
            change.Err? ==> r == CreateOutcome(Err(IllegalState(CreateChangeTableFailed, change.error)), w1))
    ensures r.result.Ok? ==> r.result.value.KeyedTable? && r.result.value.Id() == meta.identifier
    ensures r.result.Err? ==> r.result.error.IllegalArgument? || r.result.error.IllegalState?
    ensures Shrinks(w, r.warehouse)
    ensures r.result.Ok? ==>
      var base := meta.locations[BaseKey];
      var change := meta.locations[ChangeKey];
      var filled := DerivedProperties(props, nowMillis);
      && r.warehouse.tables == w.tables[base := PhysicalTable(schema, spec, filled, base)]
                                       [change := PhysicalTable(schema, spec, filled, change)]
      && r.result.value.baseTable.table == r.warehouse.tables[base]
      && r.result.value.changeTable.table == r.warehouse.tables[change]
      && r.result.value.primaryKeySpec == pk
      && r.result.value.tableLocation == meta.locations[TableKey]
  {
    if !LocationsPresent(meta.locations, true) then CreateOutcome(Err(IllegalArgument(LocationNotFound)), w)
    else
      var tableLocation := meta.locations[TableKey];
      var baseLocation := meta.locations[BaseKey];
      var changeLocation := meta.locations[ChangeKey];
      var filled := DerivedProperties(props, nowMillis);
      var io := RecoverableHadoopFileIO(meta.identifier, tableLocation, filled, cp);
      match Create(w, f, schema, spec, filled, baseLocation)
      case Err(e) => CreateOutcome(Err(IllegalState(CreateBaseTableFailed, e)), w)
      case Ok(baseIceberg) =>
        var w1 := WithTable(w, baseIceberg);
        match Create(w1, f, schema, spec, filled, changeLocation)
        case Err(e) => CreateOutcome(Err(IllegalState(CreateChangeTableFailed, e)), w1)
        case Ok(changeIceberg) =>
          CreateOutcome(
            Ok(KeyedTable(tableLocation, pk,
                          InternalTable(BaseStore, meta.identifier, baseIceberg, baseLocation, io, cp),
                          InternalTable(ChangeStore, meta.identifier, changeIceberg, changeLocation, io, cp))),
            WithTable(w1, changeIceberg))
  }

  function CreateUnkeyedSpec(w: Warehouse, f: Faults, cp: map<string, string>, meta: TableMeta,
                             props: map<string, string>, schema: Schema, spec: PartitionSpec,
                             nowMillis: int): (r: CreateOutcome)
    ensures !LocationsPresent(meta.locations, false) ==> r == CreateOutcome(Err(IllegalArgument(LocationNotFound)), w)
    // it succeeds iff the BASE location is free to the engine
    ensures r.result.Ok? <==> LocationsPresent(meta.locations, false) && Creatable(w, f, meta.locations[BaseKey])
    // an engine failure is wrapped, with its cause, and changes nothing
    ensures LocationsPresent(meta.locations, false) ==>
      var base := Create(w, f, schema, spec, DerivedProperties(props, nowMillis), meta.locations[BaseKey]);
      base.Err? ==> r == CreateOutcome(Err(IllegalState(CreateTableFailed, base.error)), w)
    ensures r.result.Ok? ==> r.result.value.UnkeyedTable? && r.result.value.Id() == meta.identifier
    ensures r.result.Err? ==> (r.result.error.IllegalArgument? || r.result.error.IllegalState?) && r.warehouse == w
    ensures Shrinks(w, r.warehouse)
    ensures r.result.Ok? ==>
      var base := meta.locations[BaseKey];
      && r.warehouse.tables == w.tables[base := PhysicalTable(schema, spec, DerivedProperties(props, nowMillis), base)]
      && r.result.value.table == r.warehouse.tables[base]
  {
    if !LocationsPresent(meta.locations, false) then CreateOutcome(Err(IllegalArgument(LocationNotFound)), w)
    else
      var tableLocation := meta.locations[TableKey];
      var baseLocation := meta.locations[BaseKey];
      var filled := DerivedProperties(props, nowMillis);
      match Create(w, f, schema, spec, filled, baseLocation)
      case Err(e) => CreateOutcome(Err(IllegalState(CreateTableFailed, e)), w)
      case Ok(table) =>
        var io := RecoverableHadoopFileIO(meta.identifier, tableLocation, filled, cp);
        CreateOutcome(Ok(UnkeyedTable(meta.identifier, table, baseLocation, io, cp)), WithTable(w, table))
  }

  /** `createTableByMeta` against engine state `w`, with `props` the meta's
      property map before the call. */
  function CreateSpec(w: Warehouse, f: Faults, cp: map<string, string>, meta: TableMeta,
                      props: map<string, string>, schema: Schema, pk: PrimaryKeySpec,
                      spec: PartitionSpec, nowMillis: int): (r: CreateOutcome)
    // the location checks come before any engine call
    ensures !LocationsPresent(meta.locations, pk.PrimaryKeyExisted()) ==>
      r == CreateOutcome(Err(IllegalArgument(LocationNotFound)), w)
    // it succeeds iff the locations it creates at are free to the engine (and distinct)
    ensures r.result.Ok? <==>
      && LocationsPresent(meta.locations, pk.PrimaryKeyExisted())
      && Creatable(w, f, meta.locations[BaseKey])
      && (pk.PrimaryKeyExisted() ==>
            Creatable(w, f, meta.locations[ChangeKey]) && meta.locations[BaseKey] != meta.locations[ChangeKey])
    // a failure of the first engine create is wrapped with its cause and changes nothing
    ensures LocationsPresent(meta.locations, pk.PrimaryKeyExisted()) ==>
      var base := Create(w, f, schema, spec, DerivedProperties(props, nowMillis), meta.locations[BaseKey]);
      base.Err? ==>
        r == CreateOutcome(Err(IllegalState(if pk.PrimaryKeyExisted() then CreateBaseTableFailed else CreateTableFailed,
                                            base.error)), w)
    // a keyed create whose change create fails is wrapped with that cause and keeps the base table
    ensures LocationsPresent(meta.locations, pk.PrimaryKeyExisted()) && pk.PrimaryKeyExisted() ==>
      var filled := DerivedProperties(props, nowMillis);
      var base := Create(w, f, schema, spec, filled, meta.locations[BaseKey]);
      base.Ok? ==>
        var w1 := WithTable(w, base.value);
        var change := Create(w1, f, schema, spec, filled, meta.locations[ChangeKey]);
        change.Err? ==> r == CreateOutcome(Err(IllegalState(CreateChangeTableFailed, change.error)), w1)
    // keyed iff the caller's key spec has a column
    ensures r.result.Ok? ==> (r.result.value.IsKeyedTable() <==> pk.PrimaryKeyExisted())
    // an engine failure surfaces wrapped in an illegal-state error
    ensures r.result.Err? ==> r.result.error.IllegalArgument? || r.result.error.IllegalState?
    ensures r.result.Ok? ==> r.result.value.Id() == meta.identifier
    // creation only adds tables
    ensures Shrinks(w, r.warehouse)
    ensures r.result.Ok? && pk.PrimaryKeyExisted() ==>
      var base := meta.locations[BaseKey];
      var change := meta.locations[ChangeKey];
      var filled := DerivedProperties(props, nowMillis);
      && r.warehouse.tables == w.tables[base := PhysicalTable(schema, spec, filled, base)]
                                       [change := PhysicalTable(schema, spec, filled, change)]
      && r.result.value.baseTable.table == r.warehouse.tables[base]
      && r.result.value.changeTable.table == r.warehouse.tables[change]
      && r.result.value.primaryKeySpec == pk
      && r.result.value.tableLocation == meta.locations[TableKey]
    ensures r.result.Ok? && !pk.PrimaryKeyExisted() ==>
      var base := meta.locations[BaseKey];
      && r.warehouse.tables == w.tables[base := PhysicalTable(schema, spec, DerivedProperties(props, nowMillis), base)]
      && r.result.value.table == r.warehouse.tables[base]
    // the only failure that leaves a trace is a keyed create whose change table
    // failed: the base table stays, there is no rollback
    ensures r.result.Err? && r.warehouse != w ==>
      && pk.PrimaryKeyExisted()
      && r.result.error.IllegalState? && r.result.error.message == CreateChangeTableFailed
      && r.warehouse == WithTable(w, PhysicalTable(schema, spec, DerivedProperties(props, nowMillis), meta.locations[BaseKey]))
  {
    if pk.PrimaryKeyExisted() then CreateKeyedSpec(w, f, cp, meta, props, schema, pk, spec, nowMillis)
    else CreateUnkeyedSpec(w, f, cp, meta, props, schema, spec, nowMillis)
  }

  // ---------------------------------------------------------------- drop

  /** The properties `dropTableByMeta` recovers: those of the loaded table, or
      none when the load throws. */
  function RecoveredProperties(w: Warehouse, f: Faults, cp: map<string, string>, meta: TableMeta,
                               props: map<string, string>): (r: map<string, string>)
    ensures LoadSpec(w, f, cp, meta, props).Err? ==> r == map[]
    ensures LoadSpec(w, f, cp, meta, props).Ok? ==> r == w.tables[meta.locations[BaseKey]].properties
  {
    var recovered: map<string, string> := map[];
    match LoadSpec(w, f, cp, meta, props)
    case Ok(t) => recovered + t.Properties()
    case Err(_) => recovered
  }

  /** The directory under the custom trash root that drop cleans up, if the
      trash-root property was recovered. */
  function TrashParent(w: Warehouse, f: Faults, cp: map<string, string>, meta: TableMeta,
                       props: map<string, string>, trashParent: (TableIdentifier, string) -> string): Option<string>
  {
    var recovered := RecoveredProperties(w, f, cp, meta, props);
    if TrashCustomRootLocation in recovered
    then Some(trashParent(meta.identifier, recovered[TrashCustomRootLocation]))
    else None
  }

  /** `q` lies in the tree below the directory `dir`, when there is one. */
  predicate Within(dir: Option<string>, q: string) {
    dir.Some? && Under(dir.value, q)
  }

  /** The non-purge step: drop BASE and then CHANGE from the engine, each only
      if its location is not blank; both sit in one try, so a throw on BASE
      skips CHANGE. */
  function DropBaseAndChange(w: Warehouse, f: Faults, base: Option<string>, change: Option<string>): (r: Warehouse)
    ensures Shrinks(r, w)
    // nothing outside the BASE and CHANGE directories is touched
    ensures forall q :: q in w.paths && !Within(base, q) && !Within(change, q) ==> q in r.paths
    ensures forall l :: l in w.tables && !Within(base, l) && !Within(change, l) ==> l in r.tables
    // BASE goes, and with it its directory, unless it is blank or its drop throws
    ensures !IsBlank(base) && base.value !in f.drop ==> base.value !in r.tables
    ensures !IsBlank(base) && base.value !in f.drop && base.value in w.tables ==> NothingUnder(r, base.value)
    // a throw on BASE keeps the BASE table and skips CHANGE: nothing outside BASE is touched
    ensures !IsBlank(base) && base.value in f.drop ==>
      KeepsOutside(r, w, base.value) && (base.value in w.tables <==> base.value in r.tables)
    // CHANGE goes when it is not blank, its drop does not throw and BASE's did not
    ensures !IsBlank(change) && change.value !in f.drop && (IsBlank(base) || base.value !in f.drop) ==>
      change.value !in r.tables
  {
    var afterBase := if IsBlank(base) then Attempt(w, None) else DropTable(w, f, base.value);
    if afterBase.thrown.Some? || IsBlank(change) then afterBase.state
    else DropTable(afterBase.state, f, change.value).state
  }

  /** The first step of drop: the non-purge engine drops, which never throw out
      of the step, or the purge of the TABLE directory, whose throw ends the
      whole drop. */
  function PrimaryDrop(w: Warehouse, f: Faults, meta: TableMeta, purge: bool): Attempt {
    if purge then DeleteIfExists(w, f, Get(meta.locations, TableKey))
    else Attempt(DropBaseAndChange(w, f, Get(meta.locations, BaseKey), Get(meta.locations, ChangeKey)), None)
  }

  /** `dropTableByMeta` against engine state `w`: a new engine state, never an
      error. */
  function DropSpec(w: Warehouse, f: Faults, cp: map<string, string>, meta: TableMeta,
                    props: map<string, string>, purge: bool,
                    trashParent: (TableIdentifier, string) -> string): (r: Warehouse)
    // drop only removes, and the trash step only removes from what the primary step left
    ensures Shrinks(r, w)
    ensures Shrinks(r, PrimaryDrop(w, f, meta, purge).state)
    // a throw while purging the TABLE directory ends the drop there
    ensures PrimaryDrop(w, f, meta, purge).thrown.Some? ==> r == PrimaryDrop(w, f, meta, purge).state
    // a non-purge drop removes BASE unless it is blank or its drop throws, and
    // CHANGE unless it is blank or its drop or BASE's throws, whatever the trash step does
    ensures !purge ==>
      var base := Get(meta.locations, BaseKey);
      var change := Get(meta.locations, ChangeKey);
      && (!IsBlank(base) && base.value !in f.drop ==> base.value !in r.tables)
      && (!IsBlank(change) && change.value !in f.drop && (IsBlank(base) || base.value !in f.drop) ==>
            change.value !in r.tables)
    // a non-purge drop removes nothing outside the BASE, CHANGE and trash directories
    ensures !purge ==>
      var parent := TrashParent(w, f, cp, meta, props, trashParent);
      var base := Get(meta.locations, BaseKey);
      var change := Get(meta.locations, ChangeKey);
      && (forall q :: q in w.paths && !Within(base, q) && !Within(change, q) && !Within(parent, q) ==> q in r.paths)
      && (forall l :: l in w.tables && !Within(base, l) && !Within(change, l) && !Within(parent, l) ==> l in r.tables)
    // a purge drop removes nothing outside the TABLE and trash directories
    ensures purge ==>
      var parent := TrashParent(w, f, cp, meta, props, trashParent);
      var table := Get(meta.locations, TableKey);
      && (forall q :: q in w.paths && !Within(table, q) && !Within(parent, q) ==> q in r.paths)
      && (forall l :: l in w.tables && !Within(table, l) && !Within(parent, l) ==> l in r.tables)
    // a purge drop that does not throw leaves nothing under an existing TABLE directory
    ensures purge && TableKey in meta.locations && PrimaryDrop(w, f, meta, purge).thrown.None?
            && meta.locations[TableKey] in w.paths ==>
      NothingUnder(r, meta.locations[TableKey])
    // the trash directory is touched only when the trash root was recovered by the load
    ensures TrashParent(w, f, cp, meta, props, trashParent).None? ==> r == PrimaryDrop(w, f, meta, purge).state
    ensures LoadSpec(w, f, cp, meta, props).Err? ==> TrashParent(w, f, cp, meta, props, trashParent).None?
    // a throwing existence check on it deletes nothing
    ensures var parent := TrashParent(w, f, cp, meta, props, trashParent);
      var primary := PrimaryDrop(w, f, meta, purge);
      parent.Some? && primary.thrown.None? && parent.value in f.existence ==>
      r == primary.state
    // and only when it exists after the primary step
    ensures var parent := TrashParent(w, f, cp, meta, props, trashParent);
      var primary := PrimaryDrop(w, f, meta, purge);
      parent.Some? && primary.thrown.None? && parent.value !in primary.state.paths
      && parent.value !in f.existence ==>
      r == primary.state
    // then, unless a trash call throws, nothing under it remains
    ensures var parent := TrashParent(w, f, cp, meta, props, trashParent);
      var primary := PrimaryDrop(w, f, meta, purge);
      parent.Some? && primary.thrown.None? && parent.value in primary.state.paths
      && parent.value !in f.existence && parent.value !in f.delete ==>
      NothingUnder(r, parent.value)
  {
    var parent := TrashParent(w, f, cp, meta, props, trashParent);
    var primary := PrimaryDrop(w, f, meta, purge);
    if primary.thrown.Some? || parent.None? then primary.state
    else DeleteIfExists(primary.state, f, parent).state
  }

  /** Drop with the trash step moved before the primary step, so that a throw
      in it ends the drop while the table, and with it the trash root, can still
      be loaded. */
  function DropTrashFirst(w: Warehouse, f: Faults, cp: map<string, string>, meta: TableMeta,
                          props: map<string, string>, purge: bool,
                          trashParent: (TableIdentifier, string) -> string): (r: Warehouse)
    ensures Shrinks(r, w)
    // a throw in the trash step leaves everything outside the trash directory as it was
    ensures var parent := TrashParent(w, f, cp, meta, props, trashParent);
      parent.Some? && DeleteIfExists(w, f, parent).thrown.Some? ==> KeepsOutside(r, w, parent.value)
    // without a recovered trash root it is the primary step alone
    ensures var parent := TrashParent(w, f, cp, meta, props, trashParent);
      parent.None? ==> r == PrimaryDrop(w, f, meta, purge).state
    // when the trash step does not throw, a non-purge drop still removes BASE and CHANGE
    // under the same conditions as the drop as written
    ensures var parent := TrashParent(w, f, cp, meta, props, trashParent);
      var base := Get(meta.locations, BaseKey);
      var change := Get(meta.locations, ChangeKey);
      !purge && (parent.None? || DeleteIfExists(w, f, parent).thrown.None?) ==>
        && (!IsBlank(base) && base.value !in f.drop ==> base.value !in r.tables)
        && (!IsBlank(change) && change.value !in f.drop && (IsBlank(base) || base.value !in f.drop) ==>
              change.value !in r.tables)
  {
    var parent := TrashParent(w, f, cp, meta, props, trashParent);
    var cleaned := if parent.None? then Attempt(w, None) else DeleteIfExists(w, f, parent);
    if cleaned.thrown.Some? then cleaned.state
    else PrimaryDrop(cleaned.state, f, meta, purge).state
  }

  // ---------------------------------------------------------------- the class

  /** `MixedTables`: the catalog's handle on the engine (`tables`) and the
      catalog properties it hands to every table it assembles. */
  class MixedTables {
    const catalogProperties: map<string, string>
    /** The engine and file-system state reached through the `tables` handle. */
    var warehouse: Warehouse

    constructor (catalogProperties: map<string, string>, warehouse: Warehouse)
      ensures this.catalogProperties == catalogProperties && this.warehouse == warehouse
    {
      this.catalogProperties := catalogProperties;
      this.warehouse := warehouse;
    }

    method LoadTableByMeta(meta: TableMeta, faults: Faults) returns (r: Result<ArcticTable, CatalogError>)
      ensures r == LoadSpec(warehouse, faults, catalogProperties, meta, meta.properties)
    {
      if meta.keySpec.Some? && meta.keySpec.value.fields.Some? && |meta.keySpec.value.fields.value| > 0 {
        r := LoadKeyedTable(meta, faults);
      } else {
        r := LoadUnkeyedTable(meta, faults);
      }
    }

    method LoadKeyedTable(meta: TableMeta, faults: Faults) returns (r: Result<ArcticTable, CatalogError>)
      ensures r == LoadKeyedSpec(warehouse, faults, catalogProperties, meta, meta.properties)
    {
      var tableLocation :- CheckLocation(meta.locations, TableKey);
      var baseLocation :- CheckLocation(meta.locations, BaseKey);
      var changeLocation :- CheckLocation(meta.locations, ChangeKey);
      var io := RecoverableHadoopFileIO(meta.identifier, tableLocation, meta.properties, catalogProperties);
      var baseIcebergTable :- Rethrow(Load(warehouse, faults, baseLocation));
      var baseTable := InternalTable(BaseStore, meta.identifier, baseIcebergTable, baseLocation, io, catalogProperties);
      var changeIcebergTable :- Rethrow(Load(warehouse, faults, changeLocation));
      var changeTable := InternalTable(ChangeStore, meta.identifier, changeIcebergTable, changeLocation, io, catalogProperties);
      var keySpec :- BuildPrimaryKeySpec(baseTable.table.schema, meta);
      r := Ok(KeyedTable(tableLocation, keySpec, baseTable, changeTable));
    }

    /** `buildPrimaryKeySpec`: the meta's key fields, in list order, over
        `schema`; the builder throws at the first field the schema lacks. */
    method BuildPrimaryKeySpec(schema: Schema, meta: TableMeta) returns (spec: Result<PrimaryKeySpec, CatalogError>)
      ensures spec == KeySpecFor(schema, meta.keySpec)
      // it succeeds iff every key field is a column of the schema
      ensures spec.Ok? <==> forall i :: 0 <= i < |KeyFields(meta.keySpec)| ==> KeyFields(meta.keySpec)[i] in schema.columns
      ensures spec.Ok? ==> spec.value.schema == schema
      ensures spec.Ok? && IsKeyedMeta(meta.keySpec) ==> spec.value.fields == meta.keySpec.value.fields.value
      ensures spec.Ok? && !IsKeyedMeta(meta.keySpec) ==> spec.value.fields == []
      ensures spec.Ok? ==> (spec.value.PrimaryKeyExisted() <==> IsKeyedMeta(meta.keySpec))
      // otherwise it names the first field the schema lacks
      ensures spec.Err? ==>
        exists i :: 0 <= i < |KeyFields(meta.keySpec)| && spec.error == UnknownKeyColumn(KeyFields(meta.keySpec)[i])
                    && KeyFields(meta.keySpec)[i] !in schema.columns
                    && forall j :: 0 <= j < i ==> KeyFields(meta.keySpec)[j] in schema.columns
    {
      var builder := new PrimaryKeySpecBuilder(schema);
      if meta.keySpec.Some? && meta.keySpec.value.fields.Some? && |meta.keySpec.value.fields.value| != 0 {
        var fields := meta.keySpec.value.fields.value;
        for i := 0 to |fields|
          invariant builder.schema == schema
          invariant builder.fields == fields[..i]
          invariant MissingColumn(fields, schema) == MissingColumn(fields[i..], schema)
        {
          assert fields[i..][1..] == fields[i + 1..];
          var ok := builder.AddColumn(fields[i]);
          if !ok {
            FirstMissing(fields, i, schema);
            spec := Err(UnknownKeyColumn(fields[i]));
            assert KeyFields(meta.keySpec) == fields && spec == KeySpecFor(schema, meta.keySpec);
            return;
          }
        }
        assert fields[|fields|..] == [] && fields[..|fields|] == fields;
      }
      assert MissingColumn(KeyFields(meta.keySpec), schema).None? && builder.fields == KeyFields(meta.keySpec);
      spec := Ok(builder.Build());
      assert spec == KeySpecFor(schema, meta.keySpec);
    }

    method LoadUnkeyedTable(meta: TableMeta, faults: Faults) returns (r: Result<ArcticTable, CatalogError>)
      ensures r == LoadUnkeyedSpec(warehouse, faults, catalogProperties, meta, meta.properties)
    {
      var tableLocation :- CheckLocation(meta.locations, TableKey);
      var baseLocation :- CheckLocation(meta.locations, BaseKey);
      var table :- Rethrow(Load(warehouse, faults, baseLocation));
      var io := RecoverableHadoopFileIO(meta.identifier, tableLocation, meta.properties, catalogProperties);
      r := Ok(UnkeyedTable(meta.identifier, table, baseLocation, io, catalogProperties));
    }

    method CreateTableByMeta(meta: TableMeta, schema: Schema, primaryKeySpec: PrimaryKeySpec,
                             partitionSpec: PartitionSpec, nowMillis: int, faults: Faults)
      returns (r: Result<ArcticTable, CatalogError>)
      modifies this, meta
      ensures CreateOutcome(r, warehouse) == CreateSpec(old(warehouse), faults, catalogProperties, meta,
                                                        old(meta.properties), schema, primaryKeySpec,
                                                        partitionSpec, nowMillis)
      ensures meta.properties ==
        if LocationsPresent(meta.locations, primaryKeySpec.PrimaryKeyExisted())
        then DerivedProperties(old(meta.properties), nowMillis) else old(meta.properties)
    {
      if primaryKeySpec.PrimaryKeyExisted() {
        r := CreateKeyedTable(meta, schema, primaryKeySpec, partitionSpec, nowMillis, faults);
      } else {
        r := CreateUnkeyedTable(meta, schema, primaryKeySpec, partitionSpec, nowMillis, faults);
      }
    }

    method CreateKeyedTable(meta: TableMeta, schema: Schema, primaryKeySpec: PrimaryKeySpec,
                            partitionSpec: PartitionSpec, nowMillis: int, faults: Faults)
      returns (r: Result<ArcticTable, CatalogError>)
      modifies this, meta
      ensures CreateOutcome(r, warehouse) == CreateKeyedSpec(old(warehouse), faults, catalogProperties, meta,
                                                             old(meta.properties), schema, primaryKeySpec,
                                                             partitionSpec, nowMillis)
      ensures meta.properties ==
        if LocationsPresent(meta.locations, true) then DerivedProperties(old(meta.properties), nowMillis)
        else old(meta.properties)
    {
      var tableLocation :- CheckLocation(meta.locations, TableKey);
      var baseLocation :- CheckLocation(meta.locations, BaseKey);
      var changeLocation :- CheckLocation(meta.locations, ChangeKey);
      FillTableProperties(meta, nowMillis);
      var io := RecoverableHadoopFileIO(meta.identifier, tableLocation, meta.properties, catalogProperties);
      var created := Create(warehouse, faults, schema, partitionSpec, meta.properties, baseLocation);
      if created.Err? {
        return Err(IllegalState(CreateBaseTableFailed, created.error));
      }
      var baseIcebergTable := created.value;
      warehouse := WithTable(warehouse, baseIcebergTable);
      var baseTable := InternalTable(BaseStore, meta.identifier, baseIcebergTable, baseLocation, io, catalogProperties);
      created := Create(warehouse, faults, schema, partitionSpec, meta.properties, changeLocation);
      if created.Err? {
        return Err(IllegalState(CreateChangeTableFailed, created.error));
      }
      var changeIcebergTable := created.value;
      warehouse := WithTable(warehouse, changeIcebergTable);
      var changeTable := InternalTable(ChangeStore, meta.identifier, changeIcebergTable, changeLocation, io, catalogProperties);
      r := Ok(KeyedTable(tableLocation, primaryKeySpec, baseTable, changeTable));
    }

    /** `fillTableProperties`, with the clock reading passed in. */
    method FillTableProperties(meta: TableMeta, nowMillis: int)
      modifies meta
      ensures meta.properties == DerivedProperties(old(meta.properties), nowMillis)
    {
      meta.properties := meta.properties[TableCreateTime := LongToString(nowMillis)];
      meta.properties := meta.properties[FormatVersion := "2"];
      meta.properties := meta.properties[MetadataDeleteAfterCommit := "true"];
      meta.properties := meta.properties[MaxContinuousEmptyCommits := IntegerMaxValue];
    }

    method CreateUnkeyedTable(meta: TableMeta, schema: Schema, primaryKeySpec: PrimaryKeySpec,
                              partitionSpec: PartitionSpec, nowMillis: int, faults: Faults)
      returns (r: Result<ArcticTable, CatalogError>)
      modifies this, meta
      ensures CreateOutcome(r, warehouse) == CreateUnkeyedSpec(old(warehouse), faults, catalogProperties, meta,
                                                               old(meta.properties), schema, partitionSpec, nowMillis)
      ensures meta.properties ==
        if LocationsPresent(meta.locations, false) then DerivedProperties(old(meta.properties), nowMillis)
        else old(meta.properties)
    {
      var tableLocation :- CheckLocation(meta.locations, TableKey);
      var baseLocation :- CheckLocation(meta.locations, BaseKey);
      FillTableProperties(meta, nowMillis);
      var created := Create(warehouse, faults, schema, partitionSpec, meta.properties, baseLocation);
      if created.Err? {
        return Err(IllegalState(CreateTableFailed, created.error));
      }
      var table := created.value;
      warehouse := WithTable(warehouse, table);
      var io := RecoverableHadoopFileIO(meta.identifier, tableLocation, meta.properties, catalogProperties);
      r := Ok(UnkeyedTable(meta.identifier, table, baseLocation, io, catalogProperties));
    }

    /** `dropTableByMeta`: best effort, never throws. `trashParent` is
        `TableTrashManagers.getTrashParentLocation`. */
    method DropTableByMeta(meta: TableMeta, purge: bool, faults: Faults,
                           trashParent: (TableIdentifier, string) -> string)
      modifies this
      ensures warehouse == DropSpec(old(warehouse), faults, catalogProperties, meta, meta.properties, purge, trashParent)
    {
      ghost var w0 := warehouse;
      ghost var primary := PrimaryDrop(w0, faults, meta, purge);
      var tableProperties: map<string, string> := map[];
      var loaded := LoadTableByMeta(meta, faults);
      if loaded.Ok? {
        tableProperties := tableProperties + loaded.value.Properties();
      }
      assert tableProperties == RecoveredProperties(w0, faults, catalogProperties, meta, meta.properties);
      ghost var parent := TrashParent(w0, faults, catalogProperties, meta, meta.properties, trashParent);
      if !purge {
        DropBaseAndChangeTables(Get(meta.locations, BaseKey), Get(meta.locations, ChangeKey), faults);
      } else {
        var threw := DeleteDirectory(Get(meta.locations, TableKey), faults);
        if threw {
          return;
        }
      }
      assert primary.thrown.None? && warehouse == primary.state;
      if TrashCustomRootLocation in tableProperties {
        var trashParentLocation := trashParent(meta.identifier, tableProperties[TrashCustomRootLocation]);
        assert parent == Some(trashParentLocation);
        var threw := DeleteDirectory(Some(trashParentLocation), faults);
        assert warehouse == DeleteIfExists(primary.state, faults, parent).state;
      } else {
        assert parent.None?;
      }
    }

    /** The non-purge step: BASE and then CHANGE, each when not blank, in one
        `try` whose `catch` swallows the first throw. */
    method DropBaseAndChangeTables(baseLocation: Option<string>, changeLocation: Option<string>, faults: Faults)
      modifies this
      ensures warehouse == DropBaseAndChange(old(warehouse), faults, baseLocation, changeLocation)
    {
      var thrown := false;
      if !IsBlank(baseLocation) {
        var dropped := DropInternalTable(baseLocation.value, faults);
        thrown := !dropped;
      }
      if !thrown && !IsBlank(changeLocation) {
        var dropped := DropInternalTable(changeLocation.value, faults);
      }
    }

    /** `if (fileIO.exists(path)) fileIO.asPrefixFileIO().deletePrefix(path)`:
        `threw` tells whether either call threw. */
    method DeleteDirectory(path: Option<string>, faults: Faults) returns (threw: bool)
      modifies this
      ensures threw == DeleteIfExists(old(warehouse), faults, path).thrown.Some?
      ensures warehouse == DeleteIfExists(old(warehouse), faults, path).state
    {
      var present := Exists(warehouse, faults, path);
      if present.Err? {
        return true;
      }
      threw := false;
      if present.value {
        var deleted := DeletePrefix(warehouse, faults, path.value);
        warehouse := deleted.state;
        threw := deleted.thrown.Some?;
      }
    }

    /** `dropInternalTable(location, false)`: `dropped` is false when the engine
        call throws, after removing what it had removed by then. */
    method DropInternalTable(location: string, faults: Faults) returns (dropped: bool)
      modifies this
      ensures dropped == DropTable(old(warehouse), faults, location).thrown.None?
      ensures warehouse == DropTable(old(warehouse), faults, location).state
    {
      var result := DropTable(warehouse, faults, location);
      warehouse := result.state;
      dropped := result.thrown.None?;
    }
  }
}

=== FILE: catalog_lemmas.dfy ===
/** Properties of the catalog that relate several operations: loading a table
    right after creating it, and running a drop again. */
module CatalogLemmas {
  import opened Results
  import opened Tables
  import opened Engine
  import opened Catalog

  /** Loading a table straight after creating it, with the meta's key record
      naming the caller's key columns over the created schema, returns the very
      table that creation returned: same identifier, key spec, schema, physical
      tables and file IO. It needs a load that the engine lets through, and key
      columns that the schema has (as a key spec built over it does). */
  lemma CreateThenLoad(w: Warehouse, createFaults: Faults, loadFaults: Faults, cp: map<string, string>,
                       meta: TableMeta, props: map<string, string>, schema: Schema, pk: PrimaryKeySpec,
                       spec: PartitionSpec, nowMillis: int)
    requires pk.schema == schema && KeyFields(meta.keySpec) == pk.fields
    requires forall i :: 0 <= i < |pk.fields| ==> pk.fields[i] in schema.columns
    requires CreateSpec(w, createFaults, cp, meta, props, schema, pk, spec, nowMillis).result.Ok?
    requires loadFaults.load == {}
    ensures var created := CreateSpec(w, createFaults, cp, meta, props, schema, pk, spec, nowMillis);
      LoadSpec(created.warehouse, loadFaults, cp, meta, DerivedProperties(props, nowMillis)) == created.result
  {
    assert MissingColumn(pk.fields, schema).None?;
  }

  /** A load that succeeds on a warehouse still succeeds, with the same result,
      on any warehouse it was obtained from by removing things. */
  lemma LoadOnLarger(small: Warehouse, w: Warehouse, f: Faults, cp: map<string, string>,
                     meta: TableMeta, props: map<string, string>)
    requires Shrinks(small, w)
    requires LoadSpec(small, f, cp, meta, props).Ok?
    ensures LoadSpec(w, f, cp, meta, props) == LoadSpec(small, f, cp, meta, props)
  {
  }

  /** A load is unaffected by faults it does not meet and by removals that keep
      the tables at the meta's locations. */
  lemma LoadUnaffected(w: Warehouse, w2: Warehouse, f: Faults, cp: map<string, string>,
                       meta: TableMeta, props: map<string, string>)
    requires LoadSpec(w, f, cp, meta, props).Ok?
    requires forall k :: k in meta.locations && meta.locations[k] in w.tables ==>
      meta.locations[k] in w2.tables && w2.tables[meta.locations[k]] == w.tables[meta.locations[k]]
    ensures LoadSpec(w2, NoFaults, cp, meta, props) == LoadSpec(w, f, cp, meta, props)
  {
  }

  /** Re-running a drop under the same faults changes nothing more: every step
      of the first run either removed what it targets or threw, and the same
      step throws again at the same point or finds nothing left to remove. */
  lemma {:induction false} DropIdempotent(w: Warehouse, f: Faults, cp: map<string, string>, meta: TableMeta,
                                          props: map<string, string>, purge: bool,
                                          trashParent: (TableIdentifier, string) -> string)
    ensures var once := DropSpec(w, f, cp, meta, props, purge, trashParent);
      DropSpec(once, f, cp, meta, props, purge, trashParent) == once
  {
    var once := DropSpec(w, f, cp, meta, props, purge, trashParent);
    var primary := PrimaryDrop(w, f, meta, purge);
    if primary.thrown.Some? {
      PrimaryThrowSettled(w, f, meta, purge);
    } else {
      var wp := primary.state;
      PrimaryDropSettled(w, wp, once, f, meta, purge);
      var parent := TrashParent(w, f, cp, meta, props, trashParent);
      var parent' := TrashParent(once, f, cp, meta, props, trashParent);
      if parent'.Some? {
        LoadOnLarger(once, w, f, cp, meta, props);
        assert parent' == parent;
        TrashStepSettled(wp, once, f, parent.value);
      }
    }
  }

  /** A primary step that threw throws again, at the same point, on what it
      left. */
  lemma PrimaryThrowSettled(w: Warehouse, f: Faults, meta: TableMeta, purge: bool)
    requires PrimaryDrop(w, f, meta, purge).thrown.Some?
    ensures var once := PrimaryDrop(w, f, meta, purge).state;
      PrimaryDrop(once, f, meta, purge) == Attempt(once, PrimaryDrop(once, f, meta, purge).thrown)
      && PrimaryDrop(once, f, meta, purge).thrown.Some?
  {
    var t := Get(meta.locations, TableKey);
    if t.Some? && t.value !in f.existence && t.value in w.paths {
      PrunedSettled(PrimaryDrop(w, f, meta, purge).state, w, f, t.value, true);
    }
  }

  /** After a primary step that did not throw, the same step on any smaller
      warehouse leaves it as it is. */
  lemma PrimaryDropSettled(w: Warehouse, wp: Warehouse, once: Warehouse, f: Faults, meta: TableMeta, purge: bool)
    requires PrimaryDrop(w, f, meta, purge) == Attempt(wp, None)
    requires Shrinks(once, wp)
    ensures PrimaryDrop(once, f, meta, purge) == Attempt(once, None)
  {
    if purge {
      var t := Get(meta.locations, TableKey);
      assert t.value !in once.paths by {
        if t.value in w.paths {
          assert Under(t.value, t.value);
        }
      }
    } else {
      var base := Get(meta.locations, BaseKey);
      var change := Get(meta.locations, ChangeKey);
      var afterBase := if IsBlank(base) then Attempt(w, None) else DropTable(w, f, base.value);
      if !IsBlank(base) && base.value in f.drop {
        if base.value in w.tables {
          PrunedSettled(once, w, f, base.value, true);
        }
      } else if !IsBlank(change) && change.value in f.drop {
        if change.value in afterBase.state.tables {
          PrunedSettled(once, afterBase.state, f, change.value, true);
        }
      }
    }
  }

  /** The trash step, repeated on its own outcome, changes nothing. */
  lemma TrashStepSettled(wp: Warehouse, once: Warehouse, f: Faults, parent: string)
    requires once == DeleteIfExists(wp, f, Some(parent)).state
    ensures DeleteIfExists(once, f, Some(parent)).state == once
  {
    if parent !in f.existence && parent in wp.paths {
      if parent in f.delete {
        PrunedSettled(once, wp, f, parent, true);
      } else {
        assert Under(parent, parent);
      }
    }
  }

  /** A re-run makes progress on the engine drops: once the drops no longer
      throw, a non-purge drop removes BASE and CHANGE, whatever an earlier run
      left behind. */
  lemma RerunDropsBaseAndChange(w: Warehouse, f: Faults, f2: Faults, cp: map<string, string>, meta: TableMeta,
                                props: map<string, string>, trashParent: (TableIdentifier, string) -> string)
    requires f2.drop == {}
    ensures var twice := DropSpec(DropSpec(w, f, cp, meta, props, false, trashParent), f2, cp, meta, props, false, trashParent);
      && (!IsBlank(Get(meta.locations, BaseKey)) ==> meta.locations[BaseKey] !in twice.tables)
      && (!IsBlank(Get(meta.locations, ChangeKey)) ==> meta.locations[ChangeKey] !in twice.tables)
  {
  }

  /** With the trash step first, a first run that recovered the trash root
      leaves the trash directory either clean or loadable again: a re-run
      without faults then leaves nothing under it (when the trash directory
      holds none of the table's own locations). */
  lemma TrashFirstRerunCleansTrash(w: Warehouse, f: Faults, cp: map<string, string>, meta: TableMeta,
                                   props: map<string, string>, purge: bool,
                                   trashParent: (TableIdentifier, string) -> string)
    requires TrashParent(w, f, cp, meta, props, trashParent).Some?
    requires TrashParent(w, f, cp, meta, props, trashParent).value in w.paths
    requires forall k :: k in meta.locations ==>
      !Under(TrashParent(w, f, cp, meta, props, trashParent).value, meta.locations[k])
    ensures var once := DropTrashFirst(w, f, cp, meta, props, purge, trashParent);
      NothingUnder(DropTrashFirst(once, NoFaults, cp, meta, props, purge, trashParent),
                   TrashParent(w, f, cp, meta, props, trashParent).value)
  {
    var parent := TrashParent(w, f, cp, meta, props, trashParent);
    var p := parent.value;
    var cleaned := DeleteIfExists(w, f, parent);
    var once := DropTrashFirst(w, f, cp, meta, props, purge, trashParent);
    var twice := DropTrashFirst(once, NoFaults, cp, meta, props, purge, trashParent);
    if cleaned.thrown.None? {
      assert NothingUnder(cleaned.state, p);
      assert Shrinks(twice, cleaned.state);
    } else {
      assert once == cleaned.state;
      assert p in once.paths;
      LoadUnaffected(w, once, f, cp, meta, props);
      assert TrashParent(once, NoFaults, cp, meta, props, trashParent) == parent;
      var again := DeleteIfExists(once, NoFaults, parent);
      assert NothingUnder(again.state, p);
      assert Shrinks(twice, again.state);
    }
  }

  /** What the trash-first order gives up: when the trash step throws, a
      non-purge drop as written still drops BASE, while the trash-first drop
      leaves the table in place for a later run. */
  lemma TrashFirstKeepsTableOnTrashThrow(w: Warehouse, f: Faults, cp: map<string, string>, meta: TableMeta,
                                         props: map<string, string>,
                                         trashParent: (TableIdentifier, string) -> string)
    requires TrashParent(w, f, cp, meta, props, trashParent).Some?
    requires TrashParent(w, f, cp, meta, props, trashParent).value in f.existence
    requires !IsBlank(Get(meta.locations, BaseKey))
    requires meta.locations[BaseKey] in w.tables && meta.locations[BaseKey] !in f.drop
    requires !Under(TrashParent(w, f, cp, meta, props, trashParent).value, meta.locations[BaseKey])
    ensures meta.locations[BaseKey] !in DropSpec(w, f, cp, meta, props, false, trashParent).tables
    ensures meta.locations[BaseKey] in DropTrashFirst(w, f, cp, meta, props, false, trashParent).tables
  {
  }

  /** The trash-first order is still a purge: when the trash step does not
      throw and neither the existence check nor the delete of TABLE throws,
      nothing is left under an existing TABLE directory, even when the trash
      step already removed part of it. */
  lemma TrashFirstPurgesTable(w: Warehouse, f: Faults, cp: map<string, string>, meta: TableMeta,
                              props: map<string, string>, trashParent: (TableIdentifier, string) -> string)
    requires TableKey in meta.locations && meta.locations[TableKey] in w.paths
    requires meta.locations[TableKey] !in f.existence && meta.locations[TableKey] !in f.delete
    requires var parent := TrashParent(w, f, cp, meta, props, trashParent);
      parent.None? || DeleteIfExists(w, f, parent).thrown.None?
    ensures NothingUnder(DropTrashFirst(w, f, cp, meta, props, true, trashParent), meta.locations[TableKey])
  {
    var t := meta.locations[TableKey];
    var parent := TrashParent(w, f, cp, meta, props, trashParent);
    var cleaned := if parent.None? then w else DeleteIfExists(w, f, parent).state;
    var r := DropTrashFirst(w, f, cp, meta, props, true, trashParent);
    assert Shrinks(r, cleaned);
    if t !in cleaned.paths {
      // the trash step took TABLE, so TABLE lies in the trash tree, which is now empty
      var p := parent.value;
      assert Under(p, t) && p in w.paths && NothingUnder(cleaned, p);
      forall q | Under(t, q)
        ensures q !in r.paths && q !in r.tables
      {
        UnderTransitive(p, t, q);
      }
    }
  }

  /** The engine and file-system state of the orphaned-trash example: an
      unkeyed table at `/u/base` whose trash root is `/trash`, and the trash
      directory `/trash/x` the trash-location helper gives for it. */
  const OrphanWarehouse := Warehouse(
    map["/u/base" := PhysicalTable(Schema([]), PartitionSpec(0, []), map[TrashCustomRootLocation := "/trash"], "/u/base")],
    {"/u", "/u/base", "/trash/x"})

  /** The existence check on the trash directory throws. */
  const OrphanFaults := NoFaults.(existence := {"/trash/x"})

  /** The example's meta: an unkeyed table with TABLE `/u` and BASE `/u/base`,
      whose trash-location helper maps the root `/trash` to `/trash/x`. */
  predicate OrphanMeta(meta: TableMeta, trashParent: (TableIdentifier, string) -> string) {
    && meta.locations == map[TableKey := "/u", BaseKey := "/u/base"]
    && meta.keySpec.None?
    && trashParent(meta.identifier, "/trash") == "/trash/x"
  }

  /** In the example, the first run loads the table and recovers the trash
      directory `/trash/x`. */
  lemma OrphanParentRecovered(meta: TableMeta, cp: map<string, string>, props: map<string, string>,
                              trashParent: (TableIdentifier, string) -> string)
    requires OrphanMeta(meta, trashParent)
    ensures TrashParent(OrphanWarehouse, OrphanFaults, cp, meta, props, trashParent) == Some("/trash/x")
  {
    assert "/u"[0] == '/' && "/u/base"[0] == '/';
    assert LoadSpec(OrphanWarehouse, OrphanFaults, cp, meta, props).Ok?;
  }

  /** In the example, the first run purges `/u` and then throws on the trash
      directory, which it leaves in place. */
  lemma OrphanFirstRun(meta: TableMeta, cp: map<string, string>, props: map<string, string>,
                       trashParent: (TableIdentifier, string) -> string)
    requires OrphanMeta(meta, trashParent)
    ensures var once := DropSpec(OrphanWarehouse, OrphanFaults, cp, meta, props, true, trashParent);
      "/trash/x" in once.paths && "/u/base" !in once.tables
  {
    OrphanParentRecovered(meta, cp, props, trashParent);
    var primary := PrimaryDrop(OrphanWarehouse, OrphanFaults, meta, true);
    assert primary.thrown.None? && NothingUnder(primary.state, "/u");
    assert Under("/u", "/u/base") by { assert "/u/base"[..2] == "/u"; }
    assert !Under("/u", "/trash/x") by {
      assert "/trash/x"[..2] != "/u" by { assert "/trash/x"[..2][1] == 't'; }
    }
  }

  /** As written, a purge drop whose trash step throws deletes the table first,
      so a re-run without faults can no longer load it, never recovers the
      trash root and leaves `/trash/x` in place for good; with the trash step
      first, the same two runs clean it. */
  lemma TrashOrphanedOnRerun(meta: TableMeta, cp: map<string, string>, props: map<string, string>,
                             trashParent: (TableIdentifier, string) -> string)
    requires OrphanMeta(meta, trashParent)
    ensures TrashParent(OrphanWarehouse, OrphanFaults, cp, meta, props, trashParent) == Some("/trash/x")
    ensures var once := DropSpec(OrphanWarehouse, OrphanFaults, cp, meta, props, true, trashParent);
      "/trash/x" in DropSpec(once, NoFaults, cp, meta, props, true, trashParent).paths
    ensures var once := DropTrashFirst(OrphanWarehouse, OrphanFaults, cp, meta, props, true, trashParent);
      "/trash/x" !in DropTrashFirst(once, NoFaults, cp, meta, props, true, trashParent).paths
  {
    OrphanParentRecovered(meta, cp, props, trashParent);
    OrphanStays(meta, cp, props, trashParent);
    OrphanCleanedTrashFirst(meta, cp, props, trashParent);
  }

  /** In the example, the as-written re-run cannot load the table any more and
      leaves `/trash/x`. */
  lemma OrphanStays(meta: TableMeta, cp: map<string, string>, props: map<string, string>,
                    trashParent: (TableIdentifier, string) -> string)
    requires OrphanMeta(meta, trashParent)
    ensures var once := DropSpec(OrphanWarehouse, OrphanFaults, cp, meta, props, true, trashParent);
      "/trash/x" in DropSpec(once, NoFaults, cp, meta, props, true, trashParent).paths
  {
    OrphanFirstRun(meta, cp, props, trashParent);
    var once := DropSpec(OrphanWarehouse, OrphanFaults, cp, meta, props, true, trashParent);
    assert LoadSpec(once, NoFaults, cp, meta, props).Err?;
    assert !Under("/u", "/trash/x") by {
      assert "/trash/x"[..2] != "/u" by { assert "/trash/x"[..2][1] == 't'; }
    }
  }

  /** In the example, the trash-first order cleans `/trash/x` on the re-run. */
  lemma OrphanCleanedTrashFirst(meta: TableMeta, cp: map<string, string>, props: map<string, string>,
                                trashParent: (TableIdentifier, string) -> string)
    requires OrphanMeta(meta, trashParent)
    ensures var once := DropTrashFirst(OrphanWarehouse, OrphanFaults, cp, meta, props, true, trashParent);
      "/trash/x" !in DropTrashFirst(once, NoFaults, cp, meta, props, true, trashParent).paths
  {
    OrphanParentRecovered(meta, cp, props, trashParent);
    assert !Under("/trash/x", "/u") && !Under("/trash/x", "/u/base");
    TrashFirstRerunCleansTrash(OrphanWarehouse, OrphanFaults, cp, meta, props, true, trashParent);
    assert Under("/trash/x", "/trash/x");
  }
}

=== FILE: data_file_info_utils.dfy ===
/** The file classifier: turns a data file or a positional delete file, with the
    snapshot that committed it and the table that owns it, into a flat
    `DataFileInfo` record for the optimizer.

    The record is built as the source builds it, one setter at a time, so a field
    that is never set stays unset (`None`). Three helpers are not part of this
    model and are passed in as functions: partition-path rendering, the
    keyed-file view of a data file (its type and tree node, read from the file's
    own metadata) and the parser that reads a tree node from a file path. The
    last two may fail, which stands for the exception they throw. */
module DataFileInfoUtils {
  import opened Results
  import opened Tables

  /** `DataFileType`. */
  datatype DataFileType = BaseFile | InsertFile | PosDeleteFile

  /** `DataFileType.name()`. */
  function TypeName(t: DataFileType): string {
    match t
    case BaseFile => "BASE_FILE"
    case InsertFile => "INSERT_FILE"
    case PosDeleteFile => "POS_DELETE_FILE"
  }

  /** `DataTreeNode`: a node of the binary tree over the primary-key hash space. */
  datatype DataTreeNode = DataTreeNode(mask: int, index: int)

  /** What the keyed-file view reads from a data file's own metadata. */
  datatype KeyedFileMeta = KeyedFileMeta(fileType: DataFileType, node: DataTreeNode)

  /** A file's partition values. */
  datatype PartitionData = PartitionData(values: seq<string>)

  datatype DataFile = DataFile(path: string, fileSizeInBytes: int, recordCount: int, partition: PartitionData)

  datatype DeleteFile = DeleteFile(path: string, fileSizeInBytes: int, recordCount: int, partition: PartitionData)

  datatype Snapshot = Snapshot(timestampMillis: int, sequenceNumber: int)

  /** `partitionToPath`, `new DefaultKeyedFile(f)` and
      `TableFileUtils.parseFileNodeFromFileName`; `None` is a throw. */
  datatype Helpers = Helpers(
    partitionToPath: (PartitionSpec, PartitionData) -> string,
    keyedFile: DataFile -> Option<KeyedFileMeta>,
    parseFileNode: string -> Option<DataTreeNode>)

  /** `DataFileInfo`; `None` is a field that was never set. */
  datatype DataFileInfo = DataFileInfo(
    path: Option<string>,
    size: Option<int>,
    partition: Option<string>,
    specId: Option<int>,
    recordCount: Option<int>,
    fileType: Option<string>,
    index: Option<int>,
    mask: Option<int>,
    commitTime: Option<int>,
    sequence: Option<int>)

  /** A freshly constructed record: nothing set. */
  const Unset := DataFileInfo(None, None, None, None, None, None, None, None, None, None)

  /** The exception a failing helper throws: the file's node cannot be resolved. */
  datatype ClassifyError = NodeResolution(path: string)

  /** The record the classification rules call for, stated once for both kinds
      of file: the file's own path, size and record count, the owning table's
      partition rendering and spec id, the given type and node, and commit time
      and sequence number taken separately from the snapshot. */
  function Classified(path: string, size: int, recordCount: int, partition: string, specId: int,
                      fileType: DataFileType, node: DataTreeNode, snapshot: Snapshot): DataFileInfo
  {
    DataFileInfo(Some(path), Some(size), Some(partition), Some(specId), Some(recordCount),
                 Some(TypeName(fileType)), Some(node.index), Some(node.mask),
                 Some(snapshot.timestampMillis), Some(snapshot.sequenceNumber))
  }

  /** `convertToDatafileInfo(DataFile, Snapshot, ArcticTable)`. */
  method ConvertDataFile(dataFile: DataFile, snapshot: Snapshot, table: ArcticTable, helpers: Helpers)
    returns (r: Result<DataFileInfo, ClassifyError>)
    // only the keyed-file view can fail, and only for a keyed table
    ensures r.Err? <==> table.IsKeyedTable() && helpers.keyedFile(dataFile).None?
    ensures r.Ok? ==>
      && r.value.path == Some(dataFile.path)
      && r.value.size == Some(dataFile.fileSizeInBytes)
      && r.value.recordCount == Some(dataFile.recordCount)
    ensures r.Ok? ==>
      && r.value.partition == Some(helpers.partitionToPath(table.Spec(), dataFile.partition))
      && r.value.specId == Some(table.Spec().specId)
    // an unkeyed table's file is a base file at the root node, whatever it holds
    ensures r.Ok? && !table.IsKeyedTable() ==>
      r.value.fileType == Some("BASE_FILE") && r.value.index == Some(0) && r.value.mask == Some(0)
    // a keyed table's file takes type and node from its keyed-file view
    ensures r.Ok? && table.IsKeyedTable() ==>
      var view := helpers.keyedFile(dataFile).value;
      && r.value.fileType == Some(TypeName(view.fileType))
      && r.value.index == Some(view.node.index)
      && r.value.mask == Some(view.node.mask)
    ensures r.Ok? ==>
      r.value.commitTime == Some(snapshot.timestampMillis) && r.value.sequence == Some(snapshot.sequenceNumber)
    // which together is the classification rule
    ensures r.Ok? ==>
      var spec := table.Spec();
      var view := if table.IsKeyedTable() then helpers.keyedFile(dataFile).value
                  else KeyedFileMeta(BaseFile, DataTreeNode(0, 0));
      r.value == Classified(dataFile.path, dataFile.fileSizeInBytes, dataFile.recordCount,
                            helpers.partitionToPath(spec, dataFile.partition), spec.specId,
                            view.fileType, view.node, snapshot)
  {
    var info := Unset;
    info := info.(size := Some(dataFile.fileSizeInBytes));
    info := info.(path := Some(dataFile.path));
    info := info.(partition := Some(helpers.partitionToPath(table.Spec(), dataFile.partition)));
    info := info.(specId := Some(table.Spec().specId));
    info := info.(recordCount := Some(dataFile.recordCount));
    if table.IsKeyedTable() {
      var keyedTableFile := helpers.keyedFile(dataFile);
      if keyedTableFile.None? {
        return Err(NodeResolution(dataFile.path));
      }
      info := info.(fileType := Some(TypeName(keyedTableFile.value.fileType)));
      info := info.(index := Some(keyedTableFile.value.node.index));
      info := info.(mask := Some(keyedTableFile.value.node.mask));
    } else {
      info := info.(fileType := Some(TypeName(BaseFile)));
      info := info.(index := Some(0));
      info := info.(mask := Some(0));
    }
    info := info.(commitTime := Some(snapshot.timestampMillis));
    info := info.(sequence := Some(snapshot.sequenceNumber));
    r := Ok(info);
  }

  /** The record the delete-file conversion produces as written: the
      classification rule with the snapshot's sequence number in the commit-time
      field and no sequence number. */
  function DeleteFileAsWritten(deleteFile: DeleteFile, snapshot: Snapshot, table: ArcticTable,
                               helpers: Helpers): Result<DataFileInfo, ClassifyError>
  {
    match helpers.parseFileNode(deleteFile.path)
    case None => Err(NodeResolution(deleteFile.path))
    case Some(node) =>
      var spec := table.Spec();
      Ok(Classified(deleteFile.path, deleteFile.fileSizeInBytes, deleteFile.recordCount,
                    helpers.partitionToPath(spec, deleteFile.partition), spec.specId, PosDeleteFile, node, snapshot)
         .(commitTime := Some(snapshot.sequenceNumber), sequence := None))
  }

  /** `convertToDatafileInfo(DeleteFile, Snapshot, KeyedTable)`, as written: the
      second commit-time setter stores the snapshot's sequence number over the
      timestamp, and the sequence field is never set. */
  method ConvertDeleteFile(deleteFile: DeleteFile, snapshot: Snapshot, table: ArcticTable, helpers: Helpers)
    returns (r: Result<DataFileInfo, ClassifyError>)
    requires table.IsKeyedTable()
    // only the node parser can fail
    ensures r.Err? <==> helpers.parseFileNode(deleteFile.path).None?
    ensures r.Ok? ==>
      && r.value.path == Some(deleteFile.path)
      && r.value.size == Some(deleteFile.fileSizeInBytes)
      && r.value.recordCount == Some(deleteFile.recordCount)
      && r.value.partition == Some(helpers.partitionToPath(table.Spec(), deleteFile.partition))
      && r.value.specId == Some(table.Spec().specId)
    // always a positional delete file, at the node its path encodes
    ensures r.Ok? ==>
      var node := helpers.parseFileNode(deleteFile.path).value;
      && r.value.fileType == Some("POS_DELETE_FILE")
      && r.value.index == Some(node.index)
      && r.value.mask == Some(node.mask)
    // the aliasing: commit time holds the sequence number, sequence stays unset
    ensures r.Ok? ==> r.value.commitTime == Some(snapshot.sequenceNumber) && r.value.sequence.None?
    ensures r == DeleteFileAsWritten(deleteFile, snapshot, table, helpers)
    // which is the classification rule except in those two fields
    ensures r.Ok? ==>
      var spec := table.Spec();
      r.value == Classified(deleteFile.path, deleteFile.fileSizeInBytes, deleteFile.recordCount,
                            helpers.partitionToPath(spec, deleteFile.partition), spec.specId,
                            PosDeleteFile, helpers.parseFileNode(deleteFile.path).value, snapshot)
                 .(commitTime := Some(snapshot.sequenceNumber), sequence := None)
  {
    var info := Unset;
    info := info.(size := Some(deleteFile.fileSizeInBytes));
    info := info.(path := Some(deleteFile.path));
    info := info.(partition := Some(helpers.partitionToPath(table.Spec(), deleteFile.partition)));
    info := info.(specId := Some(table.Spec().specId));
    info := info.(recordCount := Some(deleteFile.recordCount));
    info := info.(fileType := Some(TypeName(PosDeleteFile)));
    var node := helpers.parseFileNode(deleteFile.path);
    if node.None? {
      return Err(NodeResolution(deleteFile.path));
    }
    info := info.(index := Some(node.value.index));
    info := info.(mask := Some(node.value.mask));
    info := info.(commitTime := Some(snapshot.timestampMillis));
    info := info.(commitTime := Some(snapshot.sequenceNumber));
    r := Ok(info);
  }

  /** A delete file from any snapshot whose timestamp and sequence number differ
      (timestamp 1700000000000 and sequence 7, say) comes out of the conversion
      as written with a commit time that is not the snapshot's timestamp and
      with no sequence number, unlike the classification rule. */
  lemma DeleteFileCommitTimeLost(deleteFile: DeleteFile, snapshot: Snapshot, table: ArcticTable, helpers: Helpers)
    requires helpers.parseFileNode(deleteFile.path).Some?
    requires snapshot.timestampMillis != snapshot.sequenceNumber
    ensures var info := DeleteFileAsWritten(deleteFile, snapshot, table, helpers);
      && info.Ok?
      && info.value.commitTime == Some(snapshot.sequenceNumber)
      && info.value.commitTime != Some(snapshot.timestampMillis)
      && info.value.sequence.None?
      && info.value != Classified(deleteFile.path, deleteFile.fileSizeInBytes, deleteFile.recordCount,
                                  helpers.partitionToPath(table.Spec(), deleteFile.partition), table.Spec().specId,
                                  PosDeleteFile, helpers.parseFileNode(deleteFile.path).value, snapshot)
  {
  }

  /** The delete-file conversion with commit time and sequence number assigned
      separately, as the classification rule calls for. */
  method ConvertDeleteFileIntended(deleteFile: DeleteFile, snapshot: Snapshot, table: ArcticTable, helpers: Helpers)
    returns (r: Result<DataFileInfo, ClassifyError>)
    requires table.IsKeyedTable()
    ensures r.Err? <==> helpers.parseFileNode(deleteFile.path).None?
    ensures r.Ok? ==>
      r.value.commitTime == Some(snapshot.timestampMillis) && r.value.sequence == Some(snapshot.sequenceNumber)
    ensures r.Ok? ==>
      var spec := table.Spec();
      r.value == Classified(deleteFile.path, deleteFile.fileSizeInBytes, deleteFile.recordCount,
                            helpers.partitionToPath(spec, deleteFile.partition), spec.specId,
                            PosDeleteFile, helpers.parseFileNode(deleteFile.path).value, snapshot)
  {
    var info := Unset;
    info := info.(size := Some(deleteFile.fileSizeInBytes));
    info := info.(path := Some(deleteFile.path));
    info := info.(partition := Some(helpers.partitionToPath(table.Spec(), deleteFile.partition)));
    info := info.(specId := Some(table.Spec().specId));
    info := info.(recordCount := Some(deleteFile.recordCount));
    info := info.(fileType := Some(TypeName(PosDeleteFile)));
    var node := helpers.parseFileNode(deleteFile.path);
    if node.None? {
      return Err(NodeResolution(deleteFile.path));
    }
    info := info.(index := Some(node.value.index));
    info := info.(mask := Some(node.value.mask));
    info := info.(commitTime := Some(snapshot.timestampMillis));
    info := info.(sequence := Some(snapshot.sequenceNumber));
    r := Ok(info);
  }
}

=== FILE: engine.dfy ===
/** Abstract stand-in for what the catalog talks to: the table-format engine
    (`HadoopTables`: load, create, drop by location) and the Hadoop file system
    behind `ArcticFileIO` (`exists`, `deletePrefix`). Whether a call throws is
    decided by a `Faults` value that the caller supplies, and so is how much of
    a recursive delete got done before it threw. */
module Engine {
  import opened Results
  import opened Tables

  /** Why an engine or file-system call threw. */
  datatype EngineFailure =
    | NoSuchTable(location: string)
    | AlreadyExists(location: string)
    | IOFailure(path: string)
    | NullPath

  /** The locations and paths at which each kind of call throws, and
      `removedBeforeThrow`: the paths a recursive delete that throws has already
      removed. A recursive delete removes a directory after its contents, so the
      root of a delete that throws is never among them. */
  datatype Faults = Faults(
    load: set<string>,
    create: set<string>,
    drop: set<string>,
    existence: set<string>,
    delete: set<string>,
    removedBeforeThrow: set<string>)

  /** The engine's physical tables by location and the existing paths. */
  datatype Warehouse = Warehouse(tables: map<string, PhysicalTable>, paths: set<string>)

  /** The state a call that changes things leaves behind, and what it threw. */
  datatype Attempt = Attempt(state: Warehouse, thrown: Option<EngineFailure>)

  /** `q` is `p` itself or lies in the directory tree below `p`
      (paths are normalised, without a trailing separator). */
  predicate Under(p: string, q: string) {
    q == p || (|p| < |q| && q[..|p|] == p && q[|p|] == '/')
  }

  lemma UnderTransitive(p: string, q: string, s: string)
    requires Under(p, q) && Under(q, s)
    ensures Under(p, s)
  {
    if q != p && s != q {
      assert s[..|q|][..|p|] == s[..|p|];
    }
  }

  /** `w2` arises from `w` by removing tables and paths only. */
  predicate Shrinks(w2: Warehouse, w: Warehouse) {
    && w2.tables.Keys <= w.tables.Keys
    && w2.paths <= w.paths
    && forall l :: l in w2.tables ==> w2.tables[l] == w.tables[l]
  }

  /** Every path and table of `w` outside the tree below `p` is still in `w2`. */
  predicate KeepsOutside(w2: Warehouse, w: Warehouse, p: string) {
    && (forall q :: q in w.paths && !Under(p, q) ==> q in w2.paths)
    && (forall l :: l in w.tables && !Under(p, l) ==> l in w2.tables)
  }

  /** Nothing of `w` lies in the tree below `p`. */
  predicate NothingUnder(w: Warehouse, p: string) {
    && (forall q :: q in w.paths ==> !Under(p, q))
    && (forall l :: l in w.tables ==> !Under(p, l))
  }

  /** Whether a recursive delete of `p` has removed `q`: all of the tree when it
      completed, the part the faults name when it threw. */
  predicate Removed(f: Faults, p: string, q: string, threw: bool) {
    Under(p, q) && (threw ==> q != p && q in f.removedBeforeThrow)
  }

  /** `w` after a recursive delete of `p`. */
  function Pruned(w: Warehouse, f: Faults, p: string, threw: bool): (r: Warehouse)
    ensures Shrinks(r, w) && KeepsOutside(r, w, p)
    ensures !threw ==> NothingUnder(r, p)
    ensures threw ==> (p in w.paths <==> p in r.paths) && (p in w.tables <==> p in r.tables)
  {
    Warehouse(map l | l in w.tables && !Removed(f, p, l, threw) :: w.tables[l],
              set q | q in w.paths && !Removed(f, p, q, threw))
  }

  /** A recursive delete repeated on what the first one left, or on anything
      smaller, removes nothing more. */
  lemma PrunedSettled(x: Warehouse, w: Warehouse, f: Faults, p: string, threw: bool)
    requires Shrinks(x, Pruned(w, f, p, threw))
    ensures Pruned(x, f, p, threw) == x
  {
    var once := Pruned(w, f, p, threw);
    var again := Pruned(x, f, p, threw);
    assert forall q :: q in x.paths ==> q in once.paths && !Removed(f, p, q, threw);
    assert again.paths == x.paths;
    assert again.tables.Keys == x.tables.Keys;
  }

  /** No faults at all. */
  const NoFaults := Faults({}, {}, {}, {}, {}, {})

  /** `tables.load(location)`. */
  function Load(w: Warehouse, f: Faults, location: string): Result<PhysicalTable, EngineFailure> {
    if location in f.load then Err(IOFailure(location))
    else if location !in w.tables then Err(NoSuchTable(location))
    else Ok(w.tables[location])
  }

  /** `tables.create(schema, spec, properties, location)`: refuses a location
      that already holds a table. */
  function Create(w: Warehouse, f: Faults, schema: Schema, spec: PartitionSpec,
                  properties: map<string, string>, location: string): Result<PhysicalTable, EngineFailure>
  {
    if location in f.create then Err(IOFailure(location))
    else if location in w.tables then Err(AlreadyExists(location))
    else Ok(PhysicalTable(schema, spec, properties, location))
  }

  /** The warehouse once a created table is registered at its location. */
  function WithTable(w: Warehouse, t: PhysicalTable): Warehouse {
    Warehouse(w.tables[t.location := t], w.paths + {t.location})
  }

  /** `HadoopTables.dropTable(location, false)`: a location without a table is
      left alone; otherwise the table's directory is deleted recursively, which
      takes the engine's entry with it. */
  function DropTable(w: Warehouse, f: Faults, location: string): (r: Attempt)
    ensures Shrinks(r.state, w) && KeepsOutside(r.state, w, location)
    ensures r.thrown.Some? <==> location in f.drop
    ensures r.thrown.None? && location in w.tables ==> NothingUnder(r.state, location)
    ensures location !in w.tables ==> r.state == w
    // the directory itself outlives a throw
    ensures r.thrown.Some? ==> (location in w.tables <==> location in r.state.tables)
  {
    if location !in w.tables then Attempt(w, if location in f.drop then Some(IOFailure(location)) else None)
    else if location in f.drop then Attempt(Pruned(w, f, location, true), Some(IOFailure(location)))
    else Attempt(Pruned(w, f, location, false), None)
  }

  /** `fileIO.exists(path)`; a null path throws. */
  function Exists(w: Warehouse, f: Faults, path: Option<string>): Result<bool, EngineFailure> {
    match path
    case None => Err(NullPath)
    case Some(p) => if p in f.existence then Err(IOFailure(p)) else Ok(p in w.paths)
  }

  /** `deletePrefix(p)`: removes every path, and with it every table, under `p`. */
  function DeletePrefix(w: Warehouse, f: Faults, p: string): (r: Attempt)
    ensures Shrinks(r.state, w) && KeepsOutside(r.state, w, p)
    ensures r.thrown.Some? <==> p in f.delete
    ensures r.thrown.None? ==> NothingUnder(r.state, p)
    ensures r.thrown.Some? ==> (p in w.paths <==> p in r.state.paths)
  {
    if p in f.delete then Attempt(Pruned(w, f, p, true), Some(IOFailure(p)))
    else Attempt(Pruned(w, f, p, false), None)
  }

  /** `if (fileIO.exists(path)) fileIO.deletePrefix(path)`, either call may throw. */
  function DeleteIfExists(w: Warehouse, f: Faults, path: Option<string>): (r: Attempt)
    ensures Shrinks(r.state, w)
    // nothing outside the tree below the path is touched
    ensures path.Some? ==> KeepsOutside(r.state, w, path.value)
    ensures path.None? ==> r == Attempt(w, Some(NullPath))
    // a throwing existence check deletes nothing
    ensures path.None? || path.value in f.existence ==> r.state == w
    // it throws iff the existence check throws, or the path exists and its delete throws
    ensures r.thrown.None? <==>
      path.Some? && path.value !in f.existence && (path.value in w.paths ==> path.value !in f.delete)
    ensures r.thrown.None? && path.value in w.paths ==> NothingUnder(r.state, path.value)
    // an absent path is left alone, whatever lies below it
    ensures path.Some? && path.value !in w.paths && path.value !in f.existence ==> r == Attempt(w, None)
    // the path itself outlives a throw
    ensures r.thrown.Some? && path.Some? ==> (path.value in w.paths <==> path.value in r.state.paths)
  {
    match Exists(w, f, path)
    case Err(e) => Attempt(w, Some(e))
    case Ok(present) => if present then DeletePrefix(w, f, path.value) else Attempt(w, None)
  }
}

=== FILE: results.dfy ===
/** `Option` stands for a Java reference that may be null, `Result` for a call
    that either returns or throws. `Result` works with `:-`, which gives the
    early exit that an uncaught Java exception has. */
module Results {

  datatype Option<+T> = None | Some(value: T)

  datatype Result<+T, +E> = Ok(value: T) | Err(error: E) {

    predicate IsFailure() {
      Err?
    }

    function PropagateFailure<U>(): Result<U, E>
      requires Err?
    {
      Err(error)
    }

    function Extract(): T
      requires Ok?
    {
      value
    }
  }

  /** `m.get(k)` on a Java map: null when the key is absent. */
  function Get<K, V>(m: map<K, V>, k: K): Option<V> {
    if k in m then Some(m[k]) else None
  }
}

=== FILE: tables.dfy ===
/** The table handles that the catalog assembles: the engine's physical tables,
    the primary-key specification, and the logical (mixed-format) table that is
    either unkeyed (one physical table) or keyed (a base store and a change store). */
module Tables {

  /** `TableIdentifier`: catalog, database and table name. */
  datatype TableIdentifier = TableIdentifier(catalog: string, database: string, tableName: string)

  /** A table schema, reduced to its ordered column names. */
  datatype Schema = Schema(columns: seq<string>)

  /** A partition specification with the id the engine gave it. */
  datatype PartitionSpec = PartitionSpec(specId: int, sourceColumns: seq<string>)

  /** A physical table of the table-format engine, as created at `location`. */
  datatype PhysicalTable = PhysicalTable(
    schema: Schema,
    spec: PartitionSpec,
    properties: map<string, string>,
    location: string)

  /** `PrimaryKeySpec`: the ordered key columns over a schema. */
  datatype PrimaryKeySpec = PrimaryKeySpec(schema: Schema, fields: seq<string>) {
    predicate PrimaryKeyExisted() {
      |fields| > 0
    }
  }

  /** `PrimaryKeySpec.Builder`: collects key columns in the order they are added. */
  class PrimaryKeySpecBuilder {
    const schema: Schema
    var fields: seq<string>

    constructor (schema: Schema)
      ensures this.schema == schema && fields == []
    {
      this.schema := schema;
      fields := [];
    }

    /** `addColumn(name)`: `ok` is false for a column the schema does not have,
        which stands for the argument error the builder throws. */
    method AddColumn(name: string) returns (ok: bool)
      modifies this
      ensures ok <==> name in schema.columns
      ensures fields == if ok then old(fields) + [name] else old(fields)
    {
      ok := name in schema.columns;
      if ok {
        fields := fields + [name];
      }
    }

    function Build(): PrimaryKeySpec
      reads this
    {
      PrimaryKeySpec(schema, fields)
    }
  }

  /** The recoverable Hadoop file IO of a logical table: scoped to the table's
      root location and configured from the table and catalog properties. */
  datatype FileIO = RecoverableHadoopFileIO(
    id: TableIdentifier,
    root: string,
    tableProperties: map<string, string>,
    catalogProperties: map<string, string>)

  /** Which half of a keyed table an internal table is. */
  datatype StoreKind = BaseStore | ChangeStore

  /** A base or change store: a physical table whose operations run at
      `location` through the logical table's file IO. */
  datatype InternalTable = InternalTable(
    kind: StoreKind,
    id: TableIdentifier,
    table: PhysicalTable,
    location: string,
    io: FileIO,
    catalogProperties: map<string, string>)

  /** `ArcticTable`: `BasicUnkeyedTable` or `BasicKeyedTable`. */
  datatype ArcticTable =
    | UnkeyedTable(
        id: TableIdentifier,
        table: PhysicalTable,
        location: string,
        io: FileIO,
        catalogProperties: map<string, string>)
    | KeyedTable(
        tableLocation: string,
        primaryKeySpec: PrimaryKeySpec,
        baseTable: InternalTable,
        changeTable: InternalTable)
  {
    predicate IsKeyedTable() {
      KeyedTable?
    }

    function Id(): TableIdentifier {
      if KeyedTable? then baseTable.id else id
    }

    /** The physical table that holds the properties, schema and partition
        spec: the base store of a keyed table. */
    function Primary(): PhysicalTable {
      if KeyedTable? then baseTable.table else table
    }

    function Properties(): map<string, string> {
      Primary().properties
    }

    function Spec(): PartitionSpec {
      Primary().spec
    }

    function TableSchema(): Schema {
      Primary().schema
    }
  }
}
